=== FILE: README.md ===
# Turing machines: a Dafny model of the `turing_machines` library core

This project models `src/lib.rs` of the `turing_machines` crate. That file is a
small Turing-machine library, and the model covers four of its parts:

- the **description**: an alphabet plus a table of named states, each with one
  transition slot per alphabet symbol;
- the **loader**, which reads a description from tab-separated text. Comment and
  empty lines are skipped, the first accepted line is the alphabet, and every
  later line is one state;
- **state-name resolution**, which caches a target state's table position in a
  transition;
- the **running machine**, made of a two-sided tape that grows with `B` cells,
  a head and a current state. It steps one transition at a time and reports
  the tape from the head rightwards.

The model keeps the library's branches, checks and constants:

- the final state's name is `STOPP`;
- the movement codes are `L`, `R` and `N`;
- the growth character is `B`;
- the alphabet position is found by first occurrence;
- a transition's target is the first state with that name, and a cached index
  is trusted unchecked.

Every `panic!`, failed `assert_eq!`, failed `unwrap` and out-of-range index of
the library becomes an `Error` value (`wrappers.dfy`), so every failure path can
be observed. The one exception is a tape access, which is always in range
because the machine keeps `min <= head < max`; tape accesses are preconditions.

The modules follow the source's structure:

| file | module | models |
|---|---|---|
| `wrappers.dfy` | `Wrappers` | `Option`, `Result`, one error per panic site |
| `text.dfy` | `Text` | `str::split` on a character, its inverse `Join`, first-occurrence search |
| `movement.dfy` | `Moves` | `Movement`, `from_char`, `to_delta` |
| `description.dfy` | `Description` | `Transition`, `State`, `TMDesc`, `parse_line`, `handle_line`, `from_lines`, `from_string`, `blank_symbol` |
| `resolution.dfy` | `Resolution` | `resolve_state_index`, `resolve_all_state_indices` |
| `tape.dfy` | `Tapes` | `Tape`, `from_str`, `max`, `min`, `ensure_space`, `Index`/`IndexMut`, `to_string` |
| `machine.dfy` | `Machine` | `TM::new`, `run_step`, `has_finished`, `get_tape_output`; running after resolution |
| `format.dfy` | `Format` | the text a description is written as, and the round trip through the loader |
| `hello.dfy` | `Hello` | the hello-world machine of `tests/hello-empty.rs`: its text, loading it, and its 40-step run |
| `scenarios.dfy` | `Scenarios` | small machines at the edges of `run_step`: final at once, missing transition, short state, `B` growth |

## Where the code decides

In each of these points the model follows `src/lib.rs`, which differs from what
a reader of the file format might expect:

- The loader does not compare a state's cell count with the alphabet size.
  - A state with too few cells loads fine (`Scenarios.ShortLoads`).
  - The machine fails only when it reads a symbol beyond the state's last slot (`Scenarios.ShortRun`).
- Duplicate state names are accepted. Resolution picks the first state with the name.
- `ensure_space` fills new cells with a hard-coded `B`, not with `blank_symbol()`.
  - On an alphabet without `B`, a step onto a new cell leads to a missing-symbol failure on the next step, unless that step entered `STOPP` (`Scenarios.GrownCellUnknown`).
- A missing transition is reported with the alphabet position of the symbol, not the symbol itself.
  - Example: `NoTransition("q0", 1)` in `Scenarios.RewriterRun`.
- An alphabet line with only its field 0 declares no symbols. The next accepted line is then read as the alphabet again (`Description.HandleLine`).

## Model

| member | source | states |
|---|---|---|
| Moves.FromChar | src/lib.rs:47-54 | `L`, `R` and `N` decode to their movements. Every other character is the "not a valid movement" failure carrying that character. Decoding inverts the movement's code. |
| Moves.FromCharToChar | src/lib.rs:40-54 | Decoding the code of any movement gives that movement back. |
| Moves.ToDelta | src/lib.rs:56-62 | The delta is -1, 0 or 1. It is -1 exactly for `Left`, 1 exactly for `Right` and 0 exactly for `None` (`Stay`). |
| Text.Split | src/lib.rs:114 | Splitting on a separator gives one piece more than the separator occurs. No piece contains the separator. |
| Text.JoinSplit | src/lib.rs:114 | Gluing the pieces of a split back together with the separator restores the string, so splitting loses nothing. |
| Text.SplitJoin | src/lib.rs:25 | Splitting a join of separator-free pieces gives the pieces back. |
| Text.IndexOf | src/lib.rs:284-288 | The result is the first position holding the element, and there is none exactly when the element does not occur. |
| Description.ParseTransition | src/lib.rs:24-36 | A cell decodes exactly when it has three comma-separated parts, one-character symbol and movement parts, and a valid movement code. The failures are checked in the source's order: a wrong part count is `FieldCount` of the cell, a symbol or movement part of the wrong width is `NotOneChar` of that part, and a bad movement code is `BadMovement` of it. The result has no cached index, and writing it back gives the cell text. |
| Description.ParseTransitionField | src/lib.rs:24-36 | Decoding a transition's text gives the transition back without its cached index, when neither its target nor its symbol is a comma. |
| Description.ParseCell | src/lib.rs:74-79 | `-` is an empty slot. Any other cell is decoded as a transition: the cell succeeds exactly when that decoding does, and fails with that decoding's error. |
| Description.ParseCells | src/lib.rs:74-79 | Cells decode slot by slot in order. On failure, the error is the first bad cell's error. |
| Description.NewState | src/lib.rs:73-85 | A state gets the given name and exactly one slot per cell, empty exactly for `-`. It fails exactly when some non-`-` cell is not a well-formed transition, and the error is the first such cell's decoding error. |
| Description.ParseLine | src/lib.rs:108-115 | Empty lines and lines starting with `#` are skipped. Any other line gives its tab-free fields, one more than it has tabs, and they join back to the line. |
| Description.Symbols | src/lib.rs:119-122 | Every alphabet field must be one character. The symbols are those characters in order, and the first longer or empty field is the error. |
| Description.HandleLine | src/lib.rs:117-128 | While the alphabet is empty, fields 1.. are appended as symbols and the states are kept. Afterwards, the line appends exactly the state `State::new` builds from field 0 and the remaining fields as cells. Nothing is checked against the alphabet size. A line with no fields there is the missing-name failure. Any other failure is the alphabet's first bad field, or the error `State::new` gives for the line. |
| Description.LoadAppends | src/lib.rs:178-184 | Once the alphabet is set, lines that each build a state append exactly those states, in order. |
| Description.AcceptedLines | src/lib.rs:174 | At most one field list per text line, each with at least one field. When no line is accepted nothing remains. When every line is accepted, the result is each line's fields, in order. |
| Description.AcceptedLinesSound | src/lib.rs:174 | Only accepted lines remain: every kept field list is what `parse_line` gives for some line of the text. |
| Description.AcceptedLineKept | src/lib.rs:174 | Every line `parse_line` accepts has its fields kept. |
| Description.FromLines | src/lib.rs:178-184 | No lines give the empty description. The first line never adds a state and every later line adds at most one. Which error a failing load returns is stated by `Description.FromLinesOutcome`. |
| Description.LoadOutcome | src/lib.rs:178-184 | A failing load fails at the first line `handle_line` rejects. Every earlier line is handled successfully, and that line's error is the outcome. |
| Description.FromLinesOutcome | src/lib.rs:178-184 | A failing `from_lines` returns the error of its first rejected line, after loading every earlier line successfully. |
| Description.FromString | src/lib.rs:173-176 | A text of only empty and comment lines loads as the empty description, and a text never yields more states than it has lines. A failing text returns the error `Description.FromLinesOutcome` gives for its accepted lines. |
| Description.BlankSymbol | src/lib.rs:161-163 | The blank is the last alphabet symbol, even when that symbol also occurs earlier. An empty alphabet is the failed `unwrap`. |
| Description.LoadedBlankSymbol | src/lib.rs:161-163 | The blank symbol of a loaded description is the last field of its alphabet line. |
| Description.IsFinal | src/lib.rs:87-89 | A state is final exactly when its name is `STOPP`. |
| Description.FromLinesUnresolved | src/lib.rs:178-184 | Every description built from text has no cached state index. |
| Description.LoadStates | src/lib.rs:117-128 | After the alphabet, each line appends one state named by its field 0, with one slot per remaining field. That state is exactly what `State::new` builds from the line. The alphabet and the earlier states stay. |
| Description.FromLinesShape | src/lib.rs:178-184 | With a first line of at least one symbol, that line is the alphabet and every other line is one state. The states are in order, each exactly the state `State::new` builds from its line. |
| Description.AcceptedLinesAppend | src/lib.rs:174 | Filtering lines distributes over concatenation. |
| Description.IgnoredLineIrrelevant | src/lib.rs:109-111 | An empty or comment line inserted anywhere in a text leaves the loaded description, or the loading error, unchanged. |
| Resolution.ResolveStateIndex | src/lib.rs:130-140 | A cached index is returned unchecked. Otherwise the result is the position of the first state with the target's name. It is the "state not found" failure exactly when no state has that name. |
| Resolution.ResolveCells | src/lib.rs:152-157 | Every slot is resolved against the description as it was before the pass. Empty slots stay empty. Transitions keep their fields and gain the resolved index. On failure the error names the first slot whose target does not resolve. |
| Resolution.ResolveStates | src/lib.rs:151-158 | Each state keeps its name and gets its slots resolved. It fails exactly when some transition cannot be resolved, with the "state not found" of the first such transition in state-then-slot order. |
| Resolution.ResolveAll | src/lib.rs:142-159 | The pass succeeds exactly when every transition resolves. It keeps the alphabet, the number of states, the names and every slot except its cached index. Otherwise it names the first unresolvable target in state-then-slot order, where the loop panics. |
| Resolution.ResolveAllFullyResolves | src/lib.rs:151-158 | After a successful pass, every transition carries an index. |
| Resolution.ResolveAllIdempotent | src/lib.rs:130-133 | A second pass changes nothing, because cached indices are returned as they are. |
| Resolution.ResolutionTotal | src/lib.rs:130-159 | On a freshly loaded description, every cached index points into the table, at the first state with the transition's target name. |
| Resolution.ResolutionFailsIffUnknownTarget | src/lib.rs:134-138 | On a freshly loaded description the pass fails exactly when some transition names a state that is not in the table. |
| Tapes.FromStr | src/lib.rs:194-199 | The input occupies offsets 0 to its length, in order, with nothing to the left of 0. |
| Tapes.Set | src/lib.rs:231-242 | Writing a cell keeps the extent, puts the character at that offset and leaves every other cell unchanged. |
| Tapes.SetThenGet | src/lib.rs:231-254 | Reading a cell after a write gives the written character at that offset and the old character elsewhere. |
| Tapes.EnsureSpace | src/lib.rs:212-218 | Afterwards the offset is on the tape. The tape grows on the needed side by exactly enough. Old cells are unchanged and every new cell holds `B`. |
| Tapes.EnsureSpaceIdempotent | src/lib.rs:212-218 | Growing again for the same offset changes nothing. |
| Tapes.EnsureSpaceMonotone | src/lib.rs:212-218 | Growth never shrinks the tape, and an offset already on the tape leaves it unchanged. |
| Tapes.Extent | src/lib.rs:201-209 | `min` is at most 0 and `max` at least 0, they span one offset per stored cell, and an offset is valid exactly when one side stores a cell for it. |
| Tapes.GetAddressing | src/lib.rs:231-254 | Offset `i` reads position `i - min` of the left side reversed followed by the right side, which is position `i - min` of the tape's string. |
| Tapes.ToString | src/lib.rs:221-229 | The string has one character per cell, the cell at offset `min + k` at position `k`. |
| Tapes.RenderIsSlice | src/lib.rs:221-229 | Any window of cells is the matching slice of the whole tape's string. |
| Machine.New | src/lib.rs:265-276 | The machine starts on offset 0 in the first state, with the input on offsets 0.. and a single `B` when the input is empty. A description without states is the `states[0]` failure. |
| Machine.CurrentTransition | src/lib.rs:283-293 | The transition is taken from the slot at the first alphabet position of the symbol under the head. The failures are a symbol not in the alphabet, a state with too few slots, and an empty slot, in that order. |
| Machine.HasFinished | src/lib.rs:303-305 | The machine has finished exactly when its current state is named `STOPP`. |
| Machine.RunStep | src/lib.rs:278-301 | A finished machine is left unchanged. Otherwise the step writes the transition's symbol under the head, moves the head by its delta, grows the tape only on the side the head left and only as far as the new head, and enters the resolved target state, keeping `min <= head < max`. It succeeds whenever the symbol, slot and target are all found. Every failure happens before any change. |
| Machine.Run | tests/hello-empty.rs:31-33 | Repeated `run_step` calls, as the test's loop makes them, keep `min <= head < max` and the description. |
| Machine.StepTaken | src/lib.rs:278-301 | When the symbol first occurs at position `k`, slot `k` holds `t` and `t` resolves to state `j`, the step yields exactly that write, move, growth and state `j`. |
| Machine.FinishedIsFixpoint | src/lib.rs:279-281 | Once the machine has finished, any number of further steps changes nothing. |
| Machine.RunAdditive | src/lib.rs:278-301 | Running `m` steps and then `n` more is the same as running `m + n` steps, failures included. |
| Machine.TapeOutput | src/lib.rs:307-314 | The output is the whole tape's string from the head's cell to its end. |
| Machine.GetTapeOutput | src/lib.rs:307-314 | The loop collects one character per offset from the head up to `max`, in order, which is the tape's string from the head on. |
| Machine.CurrentAfterResolve | src/lib.rs:130-133 | A state after resolution sees the same transition as before, now with the cached index its target resolves to, or fails in the same way. |
| Machine.StepMirrored | src/lib.rs:278-301 | A step over the resolved table mirrors the step over the original table: the same success or error, head, tape and table position. |
| Machine.StepAfterResolve | src/lib.rs:142-159 | After `resolve_all_state_indices`, one step does what it did before the pass. |
| Machine.RunMirrored | src/lib.rs:278-301 | Any number of steps over the resolved table mirror those over the original table. |
| Machine.RunAfterResolve | src/lib.rs:142-159 | The pass never changes the outcome of a run, its errors or its tape. |
| Machine.NewAfterResolve | src/lib.rs:265-276 | Machines started from the same input on the original and on the resolved description mirror each other. |
| Format.StateLineRoundTrip | src/lib.rs:73-128 | The text of a state without reserved characters is accepted as a line, splits into the state's fields and rebuilds the state. |
| Format.AlphabetLineRoundTrip | src/lib.rs:117-122 | The alphabet line of a tab-free alphabet is accepted and declares that alphabet again. |
| Format.CellRoundTrip | src/lib.rs:74-79 | The text of a slot is tab-free and decodes back to the slot. |
| Format.LoadStateFields | src/lib.rs:178-184 | With the alphabet set, loading the lines of some encodable states appends exactly those states. |
| Format.ToTextRoundTrip | src/lib.rs:173-184 | Loading the text of any description without reserved characters in its names and symbols, and without cached indices, gives the description back. |
| Format.LineShapes | src/lib.rs:92-96 | A state line is the name followed by a tab and the text of each slot. The alphabet line is a tab before each symbol. |
| Format.StateLineFromLeft | src/lib.rs:92-96 | A state line is the name, then a tab and a slot's text for each slot in turn, built from the left. |
| Format.AlphabetLineFromLeft | src/lib.rs:92-96 | The alphabet line is a tab and a symbol for each symbol in turn, built from the left. |
| Hello.HelloSteps | tests/hello-empty.rs:5-6 | On any hello table, the machine writes the word, walks back and stops on the word's first cell within 40 steps. |
| Hello.HelloRun | tests/hello-empty.rs:29-36 | After 40 steps on an empty input the hello machine has finished and its output is `HELLO.WORLD!`. |
| Hello.HelloLoads | tests/hello-empty.rs:7-23 | The hello table's text, after the literal's leading empty line, loads back to the table. |
| Hello.AlphabetText | tests/hello-empty.rs:8 | The literal's alphabet line is the alphabet line of any hello table. |
| Hello.StateLinesOf | tests/hello-empty.rs:9-22 | Each of the literal's state lines is the line of the state at that position of any hello table. |
| Hello.HelloTmIsText | tests/hello-empty.rs:7-23 | The literal, cut into lines, is an empty line followed by the text of any hello table. |
| Hello.HelloTmLoads | tests/hello-empty.rs:7-27 | `from_string` on the literal gives the hello table. |
| Hello.HelloTest | tests/hello-empty.rs:25-37 | `test_hello` end to end: the description loaded from the literal, started on an empty input and run for 40 steps, has finished and outputs `HELLO.WORLD!`. |
| Scenarios.StopOnlyRun | src/lib.rs:265-305 | A machine that starts in `STOPP` has finished at once, never changes, and outputs its input (or one `B` when the input is empty). |
| Scenarios.RewriterRun | src/lib.rs:283-301 | One step rewrites `A` as `B`, moves right and grows a `B` cell. The next step finds no transition, reported by alphabet position 1. |
| Scenarios.ShortLoads | src/lib.rs:117-128 | The loader builds a state with one slot over a two-symbol alphabet; nothing compares the cell count with the alphabet. |
| Scenarios.ShortRun | src/lib.rs:283-301 | That short state steps successfully on the symbol it has a slot for, and fails with the out-of-range slot when it reads the symbol beyond its slots. |
| Scenarios.GrownCellUnknown | src/lib.rs:212-218 | A new cell holds `B` whatever the alphabet is. Without `B` in the alphabet, the next step fails to find it, unless the step that grew the tape entered `STOPP`. |

## Left out

- `TMDesc::from_file` (`src/lib.rs:165-171`) does file I/O and is not modelled. `from_string` is modelled on the text already cut into lines, because `str::lines` is taken as given.
- `src/errors.rs`, `src/compiler.rs`, `src/rt.c`, `src/interpreter.rs` and `build.rs` are not part of this model.
  - They are the error wrapper for I/O, the code generator, its C runtime, the command-line driver and the build script.
  - The driver's loop decides how many steps to run. Here that number is the parameter of `Machine.Run`.
- Machine-width integers: `isize` offsets and `usize` indices are unbounded integers. A tape big enough to overflow them is not modelled.
- The clone in `resolve_all_state_indices` is modelled as resolving against the description as it was before the pass (`orig`). The borrow-checker workaround itself has no counterpart.
- The `Debug`, `Clone` and `RustcEncodable` derives and the `println!` of the test are not modelled.
- Panic messages are not modelled. Each panic is an `Error` constructor carrying values that identify the failing input, which are not always the values the message prints:
  - The `assert_eq!` checks on a transition's part count and part lengths (`src/lib.rs:26-28`) and on an alphabet field's length (`src/lib.rs:120`) print the counts. `FieldCount` and `NotOneChar` carry the offending text instead.
  - The out-of-bounds panics on a state's slots (`src/lib.rs:290`), on the state table (`src/lib.rs:297`) and on `states[0]` print the length and the index. `SlotOutOfRange` carries the state name and the index, `StateIndexOutOfRange` the index alone, and `NoStates` nothing.
- A tape access outside the tape is a precondition of `Tapes.Get` and `Tapes.Set`, not an error value. The machine invariant `min <= head < max` (`Machine.Valid`) rules it out for every access `run_step` makes.
- `TM` holds a reference into the description's state table. The model holds the state value instead, so two states with the same name and slots are not told apart. The step result does not depend on that distinction.
- The test's string literal is given as its lines (`Hello.HelloTm`). Cutting it at newlines gives an empty first line, and its closing newline ends the last line, as `str::lines` does.

=== FILE: description.dfy ===
/** The machine description (`Transition`, `State`, `TMDesc` in src/lib.rs)
    and how it is loaded from the tab-separated text format:

        <ignored>  A  B  C          first accepted line: the alphabet
        q0  q1,A,R  -  STOPP,B,N     every later line: one state

    Lines starting with `#` and empty lines are skipped; fields are separated
    by tabs; a transition cell is `-` (no transition) or
    `state,symbol,movement`. The loader checks only what it must to decode a
    cell: it does not compare cell counts with the alphabet and does not
    reject duplicate state names.
 */
module Description {
  import opened Wrappers
  import opened Text
  import opened Moves

  /** One defined transition: go to the state named `state` (whose position
      in the state table may be cached in `stateIndex`), write `symbol`,
      then move the head. */
  datatype Transition = Transition(state: string, stateIndex: Option<nat>, symbol: char, movement: Movement)

  /** A named state with one slot per alphabet symbol; `None` is `-`. */
  datatype State = State(name: string, transitions: seq<Option<Transition>>)

  /** The alphabet (`input_symbols`) and the state table; `states[0]` is the start state. */
  datatype TMDesc = TMDesc(inputSymbols: seq<char>, states: seq<State>)

  /** The reserved name of the final state. */
  const FinalName: string := "STOPP"

  /** A state is final exactly when it carries the reserved name. */
  predicate IsFinal(s: State)
    ensures IsFinal(s) <==> s.name == "STOPP"
  {
    s.name == FinalName
  }

  /** The description `TMDesc::new` starts from: no symbols, no states. */
  const Empty: TMDesc := TMDesc([], [])

  /** No transition of the table has a cached state index yet. */
  predicate Unresolved(d: TMDesc)
  {
    forall i, k :: 0 <= i < |d.states| && 0 <= k < |d.states[i].transitions| && d.states[i].transitions[k].Some? ==>
      d.states[i].transitions[k].value.stateIndex.None?
  }

  // ---------------------------------------------------------------------
  // Transition cells
  // ---------------------------------------------------------------------

  /** The text of a transition cell, `state,symbol,movement`. */
  function TransitionField(t: Transition): string
  {
    t.state + [','] + [t.symbol] + [','] + [ToChar(t.movement)]
  }

  /** Whether `s` is a well-formed transition cell: three comma-separated
      parts, the last two of one character each, the last a movement code. */
  predicate WellFormedTransition(s: string)
  {
    var v := Split(s, ',');
    |v| == 3 && |v[1]| == 1 && |v[2]| == 1 && v[2][0] in {'L', 'R', 'N'}
  }

  /** `Transition::from_str`: decodes one `state,symbol,movement` cell into a
      transition with no cached index. The checks run in the source's order:
      part count, symbol width, movement width, movement code. */
  function ParseTransition(s: string): (r: Result<Transition>)
    ensures r.Ok? <==> WellFormedTransition(s)
    ensures r.Ok? ==> r.value.stateIndex.None?
    ensures r.Ok? ==> ',' !in r.value.state && r.value.symbol != ','
    ensures r.Ok? ==> TransitionField(r.value) == s
    ensures r.Err? && |Split(s, ',')| != 3 ==> r.error == FieldCount(s)
    ensures var v := Split(s, ',');
      |v| == 3 && |v[1]| != 1 ==> r == Err(NotOneChar(v[1]))
    ensures var v := Split(s, ',');
      |v| == 3 && |v[1]| == 1 && |v[2]| != 1 ==> r == Err(NotOneChar(v[2]))
    ensures var v := Split(s, ',');
      |v| == 3 && |v[1]| == 1 && |v[2]| == 1 && v[2][0] !in {'L', 'R', 'N'} ==> r == Err(BadMovement(v[2][0]))
  {
    var v := Split(s, ',');
    if |v| != 3 then Err(FieldCount(s))
    else if |v[1]| != 1 then Err(NotOneChar(v[1]))
    else if |v[2]| != 1 then Err(NotOneChar(v[2]))
    else
      var m :- FromChar(v[2][0]);
      JoinSplit(s, ',');
      assert v[1] == [v[1][0]] && v[2] == [v[2][0]];
      Join3(v, ',');
      Ok(Transition(v[0], None, v[1][0], m))
  }

  /** Decoding the text of a transition gives it back without its cached
      index, provided no comma hides in its target name or symbol. */
  lemma ParseTransitionField(t: Transition)
    requires ',' !in t.state && t.symbol != ','
    ensures ParseTransition(TransitionField(t)) == Ok(t.(stateIndex := None))
  {
    var parts := [t.state, [t.symbol], [ToChar(t.movement)]];
    assert forall i :: 0 <= i < 3 ==> ',' !in parts[i];
    assert parts[1..] == [[t.symbol], [ToChar(t.movement)]];
    assert parts[1..][1..] == [[ToChar(t.movement)]];
    Join3(parts, ',');
    SplitJoin(parts, ',');
  }

  /** One cell of a state line: `-` or a transition. */
  function ParseCell(w: string): (r: Result<Option<Transition>>)
    ensures r.Ok? <==> (w == "-" || WellFormedTransition(w))
    ensures r.Ok? && r.value.None? <==> w == "-"
    ensures r.Ok? && r.value.Some? ==> ParseTransition(w) == Ok(r.value.value)
    ensures r.Err? ==> w != "-" && r == Err(ParseTransition(w).error)
  {
    if w == "-" then Ok(None)
    else
      var t :- ParseTransition(w);
      Ok(Some(t))
  }

  /** The cells of a state line decoded in order; the first bad cell's
      error is the outcome. */
  function ParseCells(words: seq<string>): (r: Result<seq<Option<Transition>>>)
    ensures r.Ok? <==> forall k :: 0 <= k < |words| ==> ParseCell(words[k]).Ok?
    ensures r.Ok? ==> |r.value| == |words|
    ensures r.Ok? ==> forall k :: 0 <= k < |words| ==> ParseCell(words[k]) == Ok(r.value[k])
    ensures r.Err? ==> exists k :: 0 <= k < |words| && ParseCell(words[k]) == Err(r.error)
                                   && forall j :: 0 <= j < k ==> ParseCell(words[j]).Ok?
  {
    if |words| == 0 then Ok([])
    else
      var head := ParseCell(words[0]);
      if head.Err? then Err(head.error)
      else
        var tail := ParseCells(words[1..]);
        if tail.Err? then
          ghost var k :| 0 <= k < |words[1..]| && ParseCell(words[1..][k]) == Err(tail.error)
                        && forall j :: 0 <= j < k ==> ParseCell(words[1..][j]).Ok?;
          assert ParseCell(words[k + 1]) == Err(tail.error);
          assert forall j :: 0 <= j < k + 1 ==> ParseCell(words[j]).Ok? by {
            forall j | 0 <= j < k + 1 ensures ParseCell(words[j]).Ok? {
              if j > 0 { assert words[j] == words[1..][j - 1]; }
            }
          }
          Err(tail.error)
        else
          assert forall k :: 1 <= k < |words| ==> words[k] == words[1..][k - 1];
          Ok([head.value] + tail.value)
  }

  /** `State::new`: a state named `name` with one slot per cell, `-` giving
      an empty slot and any other cell a decoded transition. */
  function NewState(name: string, words: seq<string>): (r: Result<State>)
    ensures r.Ok? <==> forall k :: 0 <= k < |words| ==> words[k] == "-" || WellFormedTransition(words[k])
    ensures r.Ok? ==> r.value.name == name && |r.value.transitions| == |words|
    ensures r.Ok? ==> forall k :: 0 <= k < |words| ==> (r.value.transitions[k].None? <==> words[k] == "-")
    ensures r.Ok? ==> forall k :: 0 <= k < |words| && words[k] != "-" ==>
                        ParseTransition(words[k]) == Ok(r.value.transitions[k].value)
    ensures r.Err? ==> r.error == ParseCells(words).error
    ensures r.Err? ==> exists k :: 0 <= k < |words| && words[k] != "-" && ParseTransition(words[k]) == Err(r.error)
                                   && forall j :: 0 <= j < k ==> ParseCell(words[j]).Ok?
  {
    var cells :- ParseCells(words);
    assert forall k :: 0 <= k < |words| ==> ParseCell(words[k]) == Ok(cells[k]);
    Ok(State(name, cells))
  }

  // ---------------------------------------------------------------------
  // Lines
  // ---------------------------------------------------------------------

  /** `TMDesc::parse_line`: nothing for a comment (leading `#`) or an empty
      line, otherwise the tab-separated fields. */
  function ParseLine(line: string): (r: Option<seq<string>>)
    ensures r.None? <==> line == [] || line[0] == '#'
    ensures r.Some? ==> |r.value| == Count(line, '\t') + 1
    ensures r.Some? ==> forall i :: 0 <= i < |r.value| ==> '\t' !in r.value[i]
    ensures r.Some? ==> Join(r.value, '\t') == line
  {
    if line == [] || line[0] == '#' then None
    else
      JoinSplit(line, '\t');
      Some(Split(line, '\t'))
  }

  /** The alphabet a header line declares: each field must be one character. */
  function Symbols(words: seq<string>): (r: Result<seq<char>>)
    ensures r.Ok? <==> forall k :: 0 <= k < |words| ==> |words[k]| == 1
    ensures r.Ok? ==> |r.value| == |words| && forall k :: 0 <= k < |words| ==> words[k] == [r.value[k]]
    ensures r.Err? ==> exists k :: 0 <= k < |words| && |words[k]| != 1 && r.error == NotOneChar(words[k])
                                   && forall j :: 0 <= j < k ==> |words[j]| == 1
  {
    if |words| == 0 then Ok([])
    else if |words[0]| != 1 then Err(NotOneChar(words[0]))
    else
      var rest := Symbols(words[1..]);
      if rest.Err? then
        ghost var k :| 0 <= k < |words[1..]| && |words[1..][k]| != 1 && rest.error == NotOneChar(words[1..][k])
                       && forall j :: 0 <= j < k ==> |words[1..][j]| == 1;
        assert words[1..][k] == words[k + 1];
        assert forall j :: 1 <= j < k + 1 ==> words[j] == words[1..][j - 1];
        Err(rest.error)
      else
        assert forall k :: 1 <= k < |words| ==> words[k] == words[1..][k - 1];
        Ok([words[0][0]] + rest.value)
  }

  /** Fields 1.. of a line, as `iter().skip(1)` yields them. */
  function SkipFirst(words: seq<string>): seq<string>
  {
    if |words| == 0 then [] else words[1..]
  }

  /** `TMDesc::handle_line`: while the alphabet is empty the line supplies
      it (fields 1..); afterwards the line appends one state named by
      field 0 with the remaining fields as its cells. */
  function HandleLine(d: TMDesc, words: seq<string>): (r: Result<TMDesc>)
    ensures |d.inputSymbols| == 0 ==>
      (r.Ok? <==> forall k :: 1 <= k < |words| ==> |words[k]| == 1)
    ensures |d.inputSymbols| == 0 && r.Ok? ==>
      r.value.states == d.states && |r.value.inputSymbols| == |SkipFirst(words)|
      && forall k :: 1 <= k < |words| ==> words[k] == [r.value.inputSymbols[k - 1]]
    ensures |d.inputSymbols| > 0 ==>
      (r.Ok? <==> |words| > 0 && NewState(words[0], words[1..]).Ok?)
    ensures |d.inputSymbols| > 0 && r.Ok? ==>
      r.value.inputSymbols == d.inputSymbols
      && |r.value.states| == |d.states| + 1 && r.value.states[..|d.states|] == d.states
      && r.value.states[|d.states|] == NewState(words[0], words[1..]).value
      && r.value.states[|d.states|].name == words[0]
      && |r.value.states[|d.states|].transitions| == |words| - 1
    ensures |d.inputSymbols| > 0 && |words| == 0 ==> r == Err(MissingStateName)
    ensures |d.inputSymbols| == 0 && r.Err? ==> r.error == Symbols(SkipFirst(words)).error
    ensures |d.inputSymbols| > 0 && |words| > 0 && r.Err? ==> r.error == NewState(words[0], words[1..]).error
  {
    if |d.inputSymbols| == 0 then
      var syms :- Symbols(SkipFirst(words));
      assert forall k :: 1 <= k < |words| ==> words[k] == SkipFirst(words)[k - 1];
      Ok(d.(inputSymbols := d.inputSymbols + syms))
    else if |words| == 0 then Err(MissingStateName)
    else
      var s :- NewState(words[0], words[1..]);
      Ok(d.(states := d.states + [s]))
  }

  /** Folds `HandleLine` over `lines`, starting from `d`. */
  function Load(d: TMDesc, lines: seq<seq<string>>): (r: Result<TMDesc>)
    ensures r.Ok? ==> |r.value.states| <= |d.states| + |lines|
    decreases |lines|
  {
    if |lines| == 0 then Ok(d)
    else
      var d' :- HandleLine(d, lines[0]);
      Load(d', lines[1..])
  }

  /** Loading handles the first line, then loads the rest from there. */
  lemma LoadStep(d: TMDesc, lines: seq<seq<string>>)
    requires |lines| > 0 && HandleLine(d, lines[0]).Ok?
    ensures Load(d, lines) == Load(HandleLine(d, lines[0]).value, lines[1..])
  {
  }

  /** `line` is a state line that builds exactly state `s`. */
  predicate Appends(line: seq<string>, s: State)
  {
    |line| > 0 && NewState(line[0], line[1..]) == Ok(s)
  }

  /** Once the alphabet is set, a line that builds `s` appends `s`. */
  lemma HandleAppends(d: TMDesc, line: seq<string>, s: State)
    requires |d.inputSymbols| > 0 && Appends(line, s)
    ensures HandleLine(d, line) == Ok(d.(states := d.states + [s]))
  {
  }

  /** Once the alphabet is set, lines that build `states` one by one append
      exactly those states, in order. */
  lemma {:induction false} LoadAppends(d: TMDesc, lines: seq<seq<string>>, states: seq<State>)
    requires |d.inputSymbols| > 0 && |lines| == |states|
    requires forall i :: 0 <= i < |lines| ==> Appends(lines[i], states[i])
    ensures Load(d, lines) == Ok(d.(states := d.states + states))
    decreases |lines|
  {
    if |lines| == 0 {
      assert d.(states := d.states + states) == d;
    } else {
      var d' := d.(states := d.states + [states[0]]);
      HandleAppends(d, lines[0], states[0]);
      LoadStep(d, lines);
      assert forall i :: 0 <= i < |lines| - 1 ==> lines[1..][i] == lines[i + 1] && states[1..][i] == states[i + 1];
      LoadAppends(d', lines[1..], states[1..]);
      assert d'.states + states[1..] == d.states + states;
    }
  }

  /** A failing load fails at the first line `HandleLine` rejects: every
      earlier line is handled, and that line's error is the outcome. */
  lemma {:induction false} LoadOutcome(d: TMDesc, lines: seq<seq<string>>)
    ensures Load(d, lines).Err? ==>
              exists k :: 0 <= k < |lines| && Load(d, lines[..k]).Ok?
                          && HandleLine(Load(d, lines[..k]).value, lines[k]) == Err(Load(d, lines).error)
    decreases |lines|
  {
    if |lines| > 0 && Load(d, lines).Err? {
      var h := HandleLine(d, lines[0]);
      assert lines[..0] == [];
      if h.Ok? {
        var rest := lines[1..];
        LoadOutcome(h.value, rest);
        var k :| 0 <= k < |rest| && Load(h.value, rest[..k]).Ok?
                 && HandleLine(Load(h.value, rest[..k]).value, rest[k]) == Err(Load(h.value, rest).error);
        assert lines[..k + 1][0] == lines[0] && lines[..k + 1][1..] == rest[..k];
        assert Load(d, lines[..k + 1]) == Load(h.value, rest[..k]);
        assert lines[k + 1] == rest[k];
      }
    }
  }

  /** `TMDesc::from_lines`: the description built from already split lines. */
  function FromLines(lines: seq<seq<string>>): (r: Result<TMDesc>)
    ensures |lines| == 0 ==> r == Ok(Empty)
    ensures r.Ok? && |lines| > 0 ==> |r.value.states| <= |lines| - 1
  {
    Load(Empty, lines)
  }

  /** A failing `from_lines` panics in the `handle_line` call of its first
      rejected line, after every earlier line was handled. */
  lemma FromLinesOutcome(lines: seq<seq<string>>)
    ensures FromLines(lines).Err? ==>
              exists k :: 0 <= k < |lines| && FromLines(lines[..k]).Ok?
                          && HandleLine(FromLines(lines[..k]).value, lines[k]) == Err(FromLines(lines).error)
  {
    LoadOutcome(Empty, lines);
  }

  /** The fields of every accepted line, in order (`filter_map(parse_line)`). */
  function AcceptedLines(text: seq<string>): (r: seq<seq<string>>)
    ensures |r| <= |text|
    ensures forall i :: 0 <= i < |r| ==> |r[i]| >= 1
    ensures (forall i :: 0 <= i < |text| ==> ParseLine(text[i]).None?) ==> r == []
    ensures (forall i :: 0 <= i < |text| ==> ParseLine(text[i]).Some?) ==>
              |r| == |text| && forall i {:trigger r[i]} :: 0 <= i < |text| ==> r[i] == ParseLine(text[i]).value
  {
    if |text| == 0 then []
    else
      var rest := AcceptedLines(text[1..]);
      assert forall i :: 0 <= i < |text| - 1 ==> text[1..][i] == text[i + 1];
      match ParseLine(text[0])
      case None => rest
      case Some(words) => [words] + rest
  }

  /** Only accepted lines are kept: every field list the filter keeps is
      what `ParseLine` gives for some line of the text. */
  lemma {:induction false} AcceptedLinesSound(text: seq<string>)
    ensures forall j :: 0 <= j < |AcceptedLines(text)| ==>
              exists i :: 0 <= i < |text| && ParseLine(text[i]) == Some(AcceptedLines(text)[j])
    decreases |text|
  {
    if |text| > 0 {
      var r := AcceptedLines(text);
      var rest := AcceptedLines(text[1..]);
      AcceptedLinesSound(text[1..]);
      var skip := if ParseLine(text[0]).Some? then 1 else 0;
      assert |r| == |rest| + skip;
      assert r == (if skip == 1 then [ParseLine(text[0]).value] else []) + rest;
      forall j | 0 <= j < |r| ensures exists i :: 0 <= i < |text| && ParseLine(text[i]) == Some(r[j]) {
        if j < skip {
          assert ParseLine(text[0]) == Some(r[j]);
        } else {
          var i :| 0 <= i < |text[1..]| && ParseLine(text[1..][i]) == Some(rest[j - skip]);
          assert ParseLine(text[i + 1]) == Some(r[j]);
        }
      }
    } else {
      assert AcceptedLines(text) == [];
    }
  }

  /** Every accepted line is kept: the fields of a line `ParseLine` accepts
      occur in the filter's result. */
  lemma {:induction false} AcceptedLineKept(text: seq<string>, i: nat)
    requires i < |text| && ParseLine(text[i]).Some?
    ensures exists j :: 0 <= j < |AcceptedLines(text)| && AcceptedLines(text)[j] == ParseLine(text[i]).value
    decreases i
  {
    var r := AcceptedLines(text);
    if i == 0 {
      assert r[0] == ParseLine(text[i]).value;
    } else {
      var tail := text[1..];
      var rest := AcceptedLines(tail);
      assert tail[i - 1] == text[i];
      AcceptedLineKept(tail, i - 1);
      var j :| 0 <= j < |rest| && rest[j] == ParseLine(tail[i - 1]).value;
      if ParseLine(text[0]).Some? {
        assert r == [ParseLine(text[0]).value] + rest;
        assert r[j + 1] == ParseLine(text[i]).value;
      } else {
        assert r == rest;
        assert r[j] == ParseLine(text[i]).value;
      }
    }
  }

  /** `TMDesc::from_string`, given the text already cut into lines. */
  function FromString(text: seq<string>): (r: Result<TMDesc>)
    ensures (forall i :: 0 <= i < |text| ==> text[i] == [] || text[i][0] == '#') ==> r == Ok(Empty)
    ensures r.Ok? ==> |r.value.states| <= |text|
  {
    FromLines(AcceptedLines(text))
  }

  /** `TMDesc::blank_symbol`: the last alphabet symbol; the library unwraps
      `last()` and so panics on an empty alphabet. */
  function BlankSymbol(d: TMDesc): (r: Result<char>)
    ensures r.Ok? <==> |d.inputSymbols| > 0
    ensures r.Ok? ==> d.inputSymbols == d.inputSymbols[..|d.inputSymbols| - 1] + [r.value]
    ensures r.Err? ==> r.error == NoAlphabetSymbols
  {
    if |d.inputSymbols| == 0 then Err(NoAlphabetSymbols)
    else Ok(d.inputSymbols[|d.inputSymbols| - 1])
  }

  // ---------------------------------------------------------------------
  // Properties of loading
  // ---------------------------------------------------------------------

  /** A freshly decoded state has no cached indices. */
  lemma NewStateUnresolved(name: string, words: seq<string>)
    requires NewState(name, words).Ok?
    ensures forall k :: 0 <= k < |words| && NewState(name, words).value.transitions[k].Some? ==>
              NewState(name, words).value.transitions[k].value.stateIndex.None?
  {
    var s := NewState(name, words).value;
    forall k | 0 <= k < |words| && s.transitions[k].Some?
      ensures s.transitions[k].value.stateIndex.None?
    {
      assert ParseTransition(words[k]) == Ok(s.transitions[k].value);
    }
  }

  /** Loading never fills in a cached index. */
  lemma {:induction false} LoadKeepsUnresolved(d: TMDesc, lines: seq<seq<string>>)
    requires Unresolved(d)
    requires Load(d, lines).Ok?
    ensures Unresolved(Load(d, lines).value)
    decreases |lines|
  {
    if |lines| > 0 {
      var d' := HandleLine(d, lines[0]).value;
      if |d.inputSymbols| > 0 {
        NewStateUnresolved(lines[0][0], lines[0][1..]);
        var s := NewState(lines[0][0], lines[0][1..]).value;
        assert d'.states == d.states + [s];
      }
      assert Unresolved(d');
      LoadKeepsUnresolved(d', lines[1..]);
    }
  }

  /** Every description loaded from text is unresolved. */
  lemma FromLinesUnresolved(lines: seq<seq<string>>)
    requires FromLines(lines).Ok?
    ensures Unresolved(FromLines(lines).value)
  {
    LoadKeepsUnresolved(Empty, lines);
  }

  /** Once the alphabet is set, each further line appends exactly one state
      named by its field 0, and the alphabet and earlier states stay. */
  lemma {:induction false} LoadStates(d: TMDesc, lines: seq<seq<string>>)
    requires |d.inputSymbols| > 0
    requires Load(d, lines).Ok?
    ensures Load(d, lines).value.inputSymbols == d.inputSymbols
    ensures |Load(d, lines).value.states| == |d.states| + |lines|
    ensures Load(d, lines).value.states[..|d.states|] == d.states
    ensures forall k :: 0 <= k < |lines| ==>
              && |lines[k]| > 0
              && Load(d, lines).value.states[|d.states| + k].name == lines[k][0]
              && |Load(d, lines).value.states[|d.states| + k].transitions| == |lines[k]| - 1
              && NewState(lines[k][0], lines[k][1..]).Ok?
              && Load(d, lines).value.states[|d.states| + k] == NewState(lines[k][0], lines[k][1..]).value
    decreases |lines|
  {
    if |lines| > 0 {
      var d' := HandleLine(d, lines[0]).value;
      LoadStates(d', lines[1..]);
      var r := Load(d, lines).value;
      assert r == Load(d', lines[1..]).value;
      assert r.states[..|d'.states|] == d'.states;
      assert r.states[..|d.states|] == d'.states[..|d.states|];
      forall k | 0 <= k < |lines|
        ensures |lines[k]| > 0 && r.states[|d.states| + k].name == lines[k][0]
        ensures |r.states[|d.states| + k].transitions| == |lines[k]| - 1
        ensures NewState(lines[k][0], lines[k][1..]).Ok?
        ensures r.states[|d.states| + k] == NewState(lines[k][0], lines[k][1..]).value
      {
        if k == 0 {
          assert r.states[|d.states|] == d'.states[|d.states|];
        } else {
          assert lines[k] == lines[1..][k - 1];
          assert |d.states| + k == |d'.states| + (k - 1);
        }
      }
    }
  }

  /** The shape of a loaded description whose first line declares at least
      one symbol: that line is the alphabet and every other line is one
      state, in order. */
  lemma FromLinesShape(lines: seq<seq<string>>)
    requires |lines| >= 1 && |lines[0]| >= 2
    requires FromLines(lines).Ok?
    ensures |FromLines(lines).value.inputSymbols| == |lines[0]| - 1
    ensures forall k :: 1 <= k < |lines[0]| ==> lines[0][k] == [FromLines(lines).value.inputSymbols[k - 1]]
    ensures |FromLines(lines).value.states| == |lines| - 1
    ensures forall k :: 1 <= k < |lines| ==>
              && |lines[k]| > 0
              && FromLines(lines).value.states[k - 1].name == lines[k][0]
              && |FromLines(lines).value.states[k - 1].transitions| == |lines[k]| - 1
              && NewState(lines[k][0], lines[k][1..]).Ok?
              && FromLines(lines).value.states[k - 1] == NewState(lines[k][0], lines[k][1..]).value
  {
    var d := HandleLine(Empty, lines[0]).value;
    LoadStates(d, lines[1..]);
    forall k | 1 <= k < |lines| ensures lines[k] == lines[1..][k - 1] { }
  }

  /** The blank symbol of a loaded description is the last field of its
      alphabet line. */
  lemma LoadedBlankSymbol(lines: seq<seq<string>>)
    requires |lines| >= 1 && |lines[0]| >= 2
    requires FromLines(lines).Ok?
    ensures BlankSymbol(FromLines(lines).value) == Ok(lines[0][|lines[0]| - 1][0])
  {
    FromLinesShape(lines);
    var last := |lines[0]| - 1;
    assert lines[0][last] == [FromLines(lines).value.inputSymbols[last - 1]];
  }

  /** `filter_map` distributes over concatenation. */
  lemma {:induction false} AcceptedLinesAppend(a: seq<string>, b: seq<string>)
    ensures AcceptedLines(a + b) == AcceptedLines(a) + AcceptedLines(b)
    decreases |a|
  {
    if |a| == 0 {
      assert a + b == b;
    } else {
      assert (a + b)[0] == a[0];
      assert (a + b)[1..] == a[1..] + b;
      AcceptedLinesAppend(a[1..], b);
    }
  }

  /** Comment and empty lines can be inserted anywhere without changing the
      loaded description. */
  lemma IgnoredLineIrrelevant(a: seq<string>, line: string, b: seq<string>)
    requires line == [] || line[0] == '#'
    ensures FromString(a + [line] + b) == FromString(a + b)
  {
    AcceptedLinesAppend(a, [line] + b);
    AcceptedLinesAppend(a, b);
    assert a + [line] + b == a + ([line] + b);
    assert ([line] + b)[1..] == b;
  }
}

=== FILE: format.dfy ===
/** The inverse of description loading: the text a description is written
    as (alphabet line, then one line per state), and the proof that loading
    that text gives the description back whenever no name or symbol
    contains a character the format reserves (tab, comma, a leading `#`).
 */
module Format {
  import opened Wrappers
  import opened Text
  import opened Moves
  import opened Description

  /** The text of one slot: `-` or `state,symbol,movement`. */
  function CellText(c: Option<Transition>): string
  {
    match c
    case None => "-"
    case Some(t) => TransitionField(t)
  }

  /** The cell texts of a sequence of slots, in order. */
  function CellTexts(cells: seq<Option<Transition>>): (f: seq<string>)
    ensures |f| == |cells| && forall k :: 0 <= k < |cells| ==> f[k] == CellText(cells[k])
  {
    if |cells| == 0 then [] else [CellText(cells[0])] + CellTexts(cells[1..])
  }

  /** The fields of a state line: the name, then one cell per slot. */
  function StateFields(s: State): (f: seq<string>)
    ensures |f| == |s.transitions| + 1 && f[0] == s.name
    ensures forall k :: 0 <= k < |s.transitions| ==> f[k + 1] == CellText(s.transitions[k])
  {
    [s.name] + CellTexts(s.transitions)
  }

  /** One one-character field per symbol. */
  function SymbolFields(syms: seq<char>): (f: seq<string>)
    ensures |f| == |syms| && forall k :: 0 <= k < |syms| ==> f[k] == [syms[k]]
  {
    if |syms| == 0 then [] else [[syms[0]]] + SymbolFields(syms[1..])
  }

  /** The fields of the alphabet line: an unused empty field 0, then one
      field per symbol. */
  function AlphabetFields(syms: seq<char>): (f: seq<string>)
    ensures |f| == |syms| + 1 && f[0] == ""
    ensures forall k :: 0 <= k < |syms| ==> f[k + 1] == [syms[k]]
  {
    [""] + SymbolFields(syms)
  }

  /** The state lines of a table, in order. */
  function StateTexts(states: seq<State>): (lines: seq<string>)
    ensures |lines| == |states| && forall i :: 0 <= i < |states| ==> lines[i] == Join(StateFields(states[i]), '\t')
  {
    if |states| == 0 then [] else [Join(StateFields(states[0]), '\t')] + StateTexts(states[1..])
  }

  /** The text of a description: the alphabet line, then the state lines in order. */
  function ToText(d: TMDesc): (lines: seq<string>)
    ensures |lines| == |d.states| + 1
  {
    [Join(AlphabetFields(d.inputSymbols), '\t')] + StateTexts(d.states)
  }

  /** Each cell's text preceded by a tab, concatenated. */
  function TabCells(cells: seq<Option<Transition>>): string
  {
    if |cells| == 0 then [] else ['\t'] + CellText(cells[0]) + TabCells(cells[1..])
  }

  /** Each symbol preceded by a tab, concatenated. */
  function TabSymbols(syms: seq<char>): string
  {
    if |syms| == 0 then [] else ['\t', syms[0]] + TabSymbols(syms[1..])
  }

  /** Joining a first field with the cell texts of some slots puts a tab
      before each cell. */
  lemma {:induction false} JoinCellTexts(first: string, cells: seq<Option<Transition>>)
    ensures Join([first] + CellTexts(cells), '\t') == first + TabCells(cells)
    decreases |cells|
  {
    if |cells| > 0 {
      JoinCellTexts(CellText(cells[0]), cells[1..]);
      assert ([first] + CellTexts(cells))[1..] == [CellText(cells[0])] + CellTexts(cells[1..]);
    }
  }

  /** Joining a first field with one field per symbol puts a tab before each symbol. */
  lemma {:induction false} JoinSymbolFields(first: string, syms: seq<char>)
    ensures Join([first] + SymbolFields(syms), '\t') == first + TabSymbols(syms)
    decreases |syms|
  {
    if |syms| > 0 {
      JoinSymbolFields([syms[0]], syms[1..]);
      assert ([first] + SymbolFields(syms))[1..] == [[syms[0]]] + SymbolFields(syms[1..]);
    }
  }

  /** A state line is the state's name followed by a tab and the text of
      each slot; the alphabet line is a tab before each symbol. */
  lemma LineShapes(s: State, syms: seq<char>)
    ensures Join(StateFields(s), '\t') == s.name + TabCells(s.transitions)
    ensures Join(AlphabetFields(syms), '\t') == TabSymbols(syms)
  {
    JoinCellTexts(s.name, s.transitions);
    JoinSymbolFields("", syms);
  }

  /** A state line built from the left: the name, then a tab and the text
      of each of the first `n` slots. */
  function Line(name: string, cells: seq<Option<Transition>>, n: nat): string
    requires n <= |cells|
  {
    if n == 0 then name else Line(name, cells, n - 1) + (['\t'] + CellText(cells[n - 1]))
  }

  /** The alphabet line built from the left: a tab before each of the first
      `n` symbols. */
  function SymbolLine(syms: seq<char>, n: nat): string
    requires n <= |syms|
  {
    if n == 0 then [] else SymbolLine(syms, n - 1) + ['\t', syms[n - 1]]
  }

  /** `TabCells` distributes over concatenation. */
  lemma {:induction false} TabCellsAppend(a: seq<Option<Transition>>, b: seq<Option<Transition>>)
    ensures TabCells(a + b) == TabCells(a) + TabCells(b)
    decreases |a|
  {
    if |a| > 0 {
      assert (a + b)[1..] == a[1..] + b;
      TabCellsAppend(a[1..], b);
    } else {
      assert a + b == b;
    }
  }

  /** `TabSymbols` distributes over concatenation. */
  lemma {:induction false} TabSymbolsAppend(a: seq<char>, b: seq<char>)
    ensures TabSymbols(a + b) == TabSymbols(a) + TabSymbols(b)
    decreases |a|
  {
    if |a| > 0 {
      assert (a + b)[1..] == a[1..] + b;
      TabSymbolsAppend(a[1..], b);
    } else {
      assert a + b == b;
    }
  }

  /** Building a line from the left agrees with the right-nested `TabCells`. */
  lemma {:induction false} LineTabCells(name: string, cells: seq<Option<Transition>>, n: nat)
    requires n <= |cells|
    ensures Line(name, cells, n) == name + TabCells(cells[..n])
    decreases n
  {
    if n == 0 {
      assert cells[..0] == [];
    } else {
      var c := cells[n - 1];
      var before := cells[..n - 1];
      assert cells[..n] == before + [c];
      assert TabCells([c]) == ['\t'] + CellText(c) by {
        assert [c][1..] == [];
      }
      calc {
        Line(name, cells, n);
        Line(name, cells, n - 1) + (['\t'] + CellText(c));
        { LineTabCells(name, cells, n - 1); }
        (name + TabCells(before)) + TabCells([c]);
        name + (TabCells(before) + TabCells([c]));
        { TabCellsAppend(before, [c]); }
        name + TabCells(before + [c]);
      }
    }
  }

  /** Building the alphabet line from the left agrees with `TabSymbols`. */
  lemma {:induction false} SymbolLineTabSymbols(syms: seq<char>, n: nat)
    requires n <= |syms|
    ensures SymbolLine(syms, n) == TabSymbols(syms[..n])
    decreases n
  {
    if n == 0 {
      assert syms[..0] == [];
    } else {
      var x := syms[n - 1];
      var before := syms[..n - 1];
      assert syms[..n] == before + [x];
      assert TabSymbols([x]) == ['\t', x] by {
        assert [x][1..] == [];
      }
      calc {
        SymbolLine(syms, n);
        SymbolLine(syms, n - 1) + ['\t', x];
        { SymbolLineTabSymbols(syms, n - 1); }
        TabSymbols(before) + TabSymbols([x]);
        { TabSymbolsAppend(before, [x]); }
        TabSymbols(before + [x]);
      }
    }
  }

  /** The text of a state is its line built from the left. */
  lemma StateLineFromLeft(s: State)
    ensures Join(StateFields(s), '\t') == Line(s.name, s.transitions, |s.transitions|)
  {
    LineShapes(s, []);
    LineTabCells(s.name, s.transitions, |s.transitions|);
    assert s.transitions[..|s.transitions|] == s.transitions;
  }

  /** The text of an alphabet is its line built from the left. */
  lemma AlphabetLineFromLeft(syms: seq<char>)
    ensures Join(AlphabetFields(syms), '\t') == SymbolLine(syms, |syms|)
  {
    LineShapes(State([], []), syms);
    SymbolLineTabSymbols(syms, |syms|);
    assert syms[..|syms|] == syms;
  }

  /** A transition the cell syntax can carry. */
  predicate EncodableTransition(t: Transition)
  {
    t.stateIndex.None? && ',' !in t.state && '\t' !in t.state && t.symbol != ',' && t.symbol != '\t'
  }

  /** A state whose line is accepted and splits back into its fields. */
  predicate EncodableState(s: State)
  {
    && |s.name| > 0 && s.name[0] != '#' && '\t' !in s.name
    && forall k :: 0 <= k < |s.transitions| && s.transitions[k].Some? ==> EncodableTransition(s.transitions[k].value)
  }

  /** A description the text format can carry: a non-empty tab-free
      alphabet and encodable, unresolved states. */
  predicate Encodable(d: TMDesc)
  {
    && |d.inputSymbols| > 0 && '\t' !in d.inputSymbols
    && forall i :: 0 <= i < |d.states| ==> EncodableState(d.states[i])
  }

  /** A join starts with its first piece. */
  lemma {:induction false} JoinStartsWith(parts: seq<string>, sep: char)
    requires |parts| >= 1
    ensures |Join(parts, sep)| >= |parts[0]|
    ensures Join(parts, sep)[..|parts[0]|] == parts[0]
    ensures |parts| > 1 ==> |Join(parts, sep)| > |parts[0]| && Join(parts, sep)[|parts[0]|] == sep
  {
    if |parts| > 1 {
      assert Join(parts, sep) == parts[0] + ([sep] + Join(parts[1..], sep));
    }
  }

  /** The cell text of an encodable slot decodes back to the slot. */
  lemma CellRoundTrip(c: Option<Transition>)
    requires c.Some? ==> EncodableTransition(c.value)
    ensures '\t' !in CellText(c)
    ensures ParseCell(CellText(c)) == Ok(c)
  {
    if c.Some? {
      var t := c.value;
      ParseTransitionField(t);
      assert t.(stateIndex := None) == t;
      assert |TransitionField(t)| >= 4;
      assert TransitionField(t) != "-";
      assert TransitionField(t) == t.state + ([','] + [t.symbol] + [','] + [ToChar(t.movement)]);
    }
  }

  /** A state line is accepted, splits into the state's fields, and those
      fields build the state again. */
  lemma StateLineRoundTrip(s: State)
    requires EncodableState(s)
    ensures ParseLine(Join(StateFields(s), '\t')) == Some(StateFields(s))
    ensures NewState(s.name, StateFields(s)[1..]) == Ok(s)
  {
    var f := StateFields(s);
    forall k | 0 <= k < |s.transitions| ensures '\t' !in f[k + 1] && ParseCell(f[k + 1]) == Ok(s.transitions[k]) {
      CellRoundTrip(s.transitions[k]);
    }
    assert forall i :: 0 <= i < |f| ==> '\t' !in f[i] by {
      forall i | 0 <= i < |f| ensures '\t' !in f[i] {
        if i > 0 { assert f[i] == f[(i - 1) + 1]; }
      }
    }
    SplitJoin(f, '\t');
    JoinStartsWith(f, '\t');
    var line := Join(f, '\t');
    assert line[0] == line[..|s.name|][0] == s.name[0];
    var words := f[1..];
    assert forall k :: 0 <= k < |words| ==> ParseCell(words[k]) == Ok(s.transitions[k]);
    var r := NewState(s.name, words).value;
    forall k | 0 <= k < |words| ensures r.transitions[k] == s.transitions[k] {
      if words[k] != "-" {
        assert ParseTransition(words[k]) == Ok(r.transitions[k].value);
      }
    }
    assert r.transitions == s.transitions;
  }

  /** The alphabet line is accepted, splits into its fields, and those
      fields declare the alphabet again. */
  lemma AlphabetLineRoundTrip(syms: seq<char>)
    requires |syms| > 0 && '\t' !in syms
    ensures ParseLine(Join(AlphabetFields(syms), '\t')) == Some(AlphabetFields(syms))
    ensures Symbols(AlphabetFields(syms)[1..]) == Ok(syms)
  {
    var f := AlphabetFields(syms);
    assert forall i :: 0 <= i < |f| ==> '\t' !in f[i] by {
      forall i | 0 <= i < |f| ensures '\t' !in f[i] {
        if i > 0 { assert f[i] == [syms[i - 1]]; }
      }
    }
    SplitJoin(f, '\t');
    JoinStartsWith(f, '\t');
    var r := Symbols(f[1..]).value;
    assert forall k :: 0 <= k < |syms| ==> f[1..][k] == [syms[k]] == [r[k]];
    assert r == syms;
  }

  /** The field lists of some states' lines, in order. */
  function StateLines(states: seq<State>): (lines: seq<seq<string>>)
    ensures |lines| == |states| && forall i :: 0 <= i < |states| ==> lines[i] == StateFields(states[i])
  {
    seq(|states|, i requires 0 <= i < |states| => StateFields(states[i]))
  }

  /** With the alphabet set, loading the field lists of some states appends
      exactly those states. */
  lemma LoadStateFields(d: TMDesc, states: seq<State>)
    requires |d.inputSymbols| > 0
    requires forall i :: 0 <= i < |states| ==> EncodableState(states[i])
    ensures Load(d, StateLines(states)) == Ok(d.(states := d.states + states))
  {
    var lines := StateLines(states);
    forall i | 0 <= i < |states| ensures Appends(lines[i], states[i]) {
      StateLineRoundTrip(states[i]);
    }
    LoadAppends(d, lines, states);
  }

  /** Loading the text of an encodable, unresolved description gives that
      description back. */
  lemma ToTextRoundTrip(d: TMDesc)
    requires Encodable(d)
    ensures FromString(ToText(d)) == Ok(d)
  {
    var text := ToText(d);
    AlphabetLineRoundTrip(d.inputSymbols);
    forall i | 0 <= i < |d.states| ensures ParseLine(text[i + 1]) == Some(StateFields(d.states[i])) {
      StateLineRoundTrip(d.states[i]);
    }
    assert forall i :: 0 <= i < |text| ==> ParseLine(text[i]).Some? by {
      forall i | 0 <= i < |text| ensures ParseLine(text[i]).Some? {
        if i > 0 { assert ParseLine(text[(i - 1) + 1]).Some?; }
      }
    }
    var lines := AcceptedLines(text);
    var stateLines := StateLines(d.states);
    assert lines == [AlphabetFields(d.inputSymbols)] + stateLines by {
      forall i | 1 <= i < |lines| ensures lines[i] == stateLines[i - 1] {
        assert lines[i] == ParseLine(text[(i - 1) + 1]).value;
      }
    }
    var d0 := TMDesc(d.inputSymbols, []);
    assert SkipFirst(lines[0]) == AlphabetFields(d.inputSymbols)[1..];
    assert Empty.inputSymbols + d.inputSymbols == d.inputSymbols;
    assert HandleLine(Empty, lines[0]) == Ok(d0);
    LoadStateFields(d0, d.states);
    assert lines[1..] == stateLines;
    assert d0.(states := [] + d.states) == d;
  }
}

=== FILE: hello.dfy ===
/** The hello-world machine of tests/hello-empty.rs. On an empty tape it
    writes `HELLO.WORLD!` rightwards (states `q0` to `qB`, one letter each),
    walks back left over the word (state `q←`), steps right off the blank
    left of the word into `STOPP`, and so ends on the word's first cell.
 */
module Hello {
  import opened Wrappers
  import opened Text
  import opened Moves
  import opened Description
  import opened Resolution
  import opened Tapes
  import opened Machine
  import opened Format

  /** The word the machine writes. */
  const Word: string := "HELLO.WORLD!"

  /** The machine's alphabet; its last symbol is the blank `B`. */
  const Alphabet: string := "HELO.WRD!B"

  /** The name of the walk-back state. */
  const Back: string := "q\U{2190}"

  /** The `i`-th digit of the writer names `q0` .. `q9`, `qA`, `qB`. */
  function Digit(i: nat): char
    requires i < 12
  {
    (if i < 10 then 48 + i else 55 + i) as char
  }

  /** The name of writer state `i`. */
  function WriterName(i: nat): string
    requires i < 12
  {
    ['q', Digit(i)]
  }

  /** The name of state `i` of the table. */
  function StateName(i: nat): string
    requires i < 14
  {
    if i < 12 then WriterName(i) else if i == 12 then Back else FinalName
  }

  /** A defined slot with no cached index. */
  function Go(target: string, symbol: char, m: Movement): Option<Transition>
  {
    Some(Transition(target, None, symbol, m))
  }

  /** A state that acts only on the blank (the tenth symbol): write
      `symbol`, move, go to `next`. */
  function Writer(name: string, next: string, symbol: char, m: Movement): State
  {
    State(name, [None, None, None, None, None, None, None, None, None, Go(next, symbol, m)])
  }

  /** The walk-back state: on each letter it writes that letter back and
      moves left; on the blank it writes the blank, moves right and stops. */
  function BackState(): State
  {
    State(Back, [ Go(Back, 'H', Left), Go(Back, 'E', Left), Go(Back, 'L', Left), Go(Back, 'O', Left), Go(Back, '.', Left),
                  Go(Back, 'W', Left), Go(Back, 'R', Left), Go(Back, 'D', Left), Go(Back, '!', Left), Go(FinalName, 'B', Right) ])
  }

  /** State `i` of the table. */
  function HelloState(i: nat): State
    requires i < 14
  {
    if i < 11 then Writer(WriterName(i), WriterName(i + 1), Word[i], Right)
    else if i == 11 then Writer(WriterName(11), Back, Word[11], Left)
    else if i == 12 then BackState()
    else State(FinalName, [])
  }

  /** The hello machine's description. */
  const HelloDesc: TMDesc :=
    TMDesc(Alphabet, [ HelloState(0), HelloState(1), HelloState(2), HelloState(3), HelloState(4),
                       HelloState(5), HelloState(6), HelloState(7), HelloState(8), HelloState(9),
                       HelloState(10), HelloState(11), HelloState(12), HelloState(13) ])

  /** The shape of the hello table, as the step lemmas need it. */
  predicate IsHello(d: TMDesc)
  {
    && d.inputSymbols == Alphabet
    && |d.states| == 14
    && forall i :: 0 <= i < 14 ==> d.states[i] == HelloState(i)
  }

  lemma HelloDescIsHello()
    ensures IsHello(HelloDesc)
  {
  }

  /** State `i` carries name `i`, and the names are pairwise different. */
  lemma HelloNames(i: nat, j: nat)
    requires i < 14 && j < 14
    ensures HelloState(i).name == StateName(i)
    ensures i != j ==> StateName(i) != StateName(j)
  {
    if i != j {
      if i < 12 && j < 12 {
        assert StateName(i)[1] == Digit(i) != Digit(j) == StateName(j)[1];
      } else if i == 12 && j < 12 {
        assert StateName(j)[1] != Back[1];
      } else if j == 12 && i < 12 {
        assert StateName(i)[1] != Back[1];
      } else {
        assert |StateName(i)| != |StateName(j)|;
      }
    }
  }

  /** Resolving the name of state `j` finds state `j`. */
  lemma ResolveHello(d: TMDesc, j: nat, symbol: char, m: Movement)
    requires IsHello(d) && j < 14
    ensures ResolveStateIndex(d, Transition(StateName(j), None, symbol, m)) == Ok(j)
  {
    HelloNames(j, j);
    forall i | 0 <= i < j ensures d.states[i].name != StateName(j) {
      HelloNames(i, j);
    }
  }

  /** The machine after writing `i` letters: head on offset `i`, the
      letters left of it, a blank under it, in writer state `i`. */
  function Writing(d: TMDesc, i: nat): (tm: TM)
    requires i < 12
    ensures Valid(tm)
  {
    TM(d, i, Tape([], Word[..i] + "B"), HelloState(i))
  }

  /** The machine walking back, with its head on offset `h` of the word
      (or on the blank left of it when `h` is -1). */
  function Walking(d: TMDesc, h: int): (tm: TM)
    requires -1 <= h < 12
    ensures Valid(tm)
  {
    TM(d, h, Tape(if h < 0 then "B" else [], Word), BackState())
  }

  /** The stopped machine: back on offset 0 in `STOPP`. */
  function Stopped(d: TMDesc): (tm: TM)
    ensures Valid(tm)
  {
    TM(d, 0, Tape("B", Word), HelloState(13))
  }

  /** Writing letter `i` over the blank at offset `i` and growing the tape
      to cover offset `i + 1` leaves the first `i + 1` letters and a blank. */
  lemma WriterTape(i: nat)
    requires i < 11
    ensures EnsureSpace(Set(Tape([], Word[..i] + "B"), i, Word[i]), i + 1) == Tape([], Word[..i + 1] + "B")
  {
    var t := Set(Tape([], Word[..i] + "B"), i, Word[i]);
    assert t.right == Word[..i + 1];
  }

  /** The machine writer `i` leads to. */
  lemma WriterNext(d: TMDesc, i: nat)
    requires IsHello(d) && i < 11
    ensures TM(d, i + ToDelta(Right), EnsureSpace(Set(Writing(d, i).tape, i, Word[i]), i + ToDelta(Right)), d.states[i + 1])
         == Writing(d, i + 1)
  {
    WriterTape(i);
  }

  /** A writer writes its letter over the blank and moves on to the next writer. */
  lemma WriterStep(d: TMDesc, i: nat)
    requires IsHello(d) && i < 11
    ensures RunStep(Writing(d, i)) == Ok(Writing(d, i + 1))
  {
    var tm := Writing(d, i);
    assert Get(tm.tape, i) == 'B';
    assert FirstPosition(tm, 9);
    var t := Transition(WriterName(i + 1), None, Word[i], Right);
    assert tm.state.transitions[9] == Some(t);
    ResolveHello(d, i + 1, Word[i], Right);
    StepTaken(tm, 9, t, i + 1);
    WriterNext(d, i);
  }

  /** The machine the last writer leads to. */
  lemma TurnNext(d: TMDesc)
    requires IsHello(d)
    ensures TM(d, 11 + ToDelta(Left), EnsureSpace(Set(Writing(d, 11).tape, 11, '!'), 11 + ToDelta(Left)), d.states[12])
         == Walking(d, 10)
  {
    assert (Word[..11] + "B")[11 := '!'] == Word;
  }

  /** The last writer writes `!` and turns round into the walk-back state. */
  lemma LastWriterStep(d: TMDesc)
    requires IsHello(d)
    ensures RunStep(Writing(d, 11)) == Ok(Walking(d, 10))
  {
    var tm := Writing(d, 11);
    assert Get(tm.tape, 11) == 'B';
    assert FirstPosition(tm, 9);
    var t := Transition(Back, None, '!', Left);
    assert tm.state.transitions[9] == Some(t);
    ResolveHello(d, 12, '!', Left);
    StepTaken(tm, 9, t, 12);
    TurnNext(d);
  }

  /** Each letter of the word first occurs among the first nine alphabet symbols. */
  lemma LetterPosition(h: nat) returns (k: nat)
    requires h < 12
    ensures k < 9 && Alphabet[k] == Word[h]
    ensures forall j :: 0 <= j < k ==> Alphabet[j] != Word[h]
  {
    var c := Word[h];
    k := if c == 'H' then 0 else if c == 'E' then 1 else if c == 'L' then 2
         else if c == 'O' then 3 else if c == '.' then 4 else if c == 'W' then 5
         else if c == 'R' then 6 else if c == 'D' then 7 else 8;
  }

  /** The machine one step of walking back leads to. */
  lemma WalkNext(d: TMDesc, h: nat)
    requires IsHello(d) && h < 12
    ensures TM(d, h + ToDelta(Left), EnsureSpace(Set(Walking(d, h).tape, h, Word[h]), h + ToDelta(Left)), d.states[12])
         == Walking(d, h - 1)
  {
    assert Word[h := Word[h]] == Word;
    if h == 0 {
      assert [] + Blanks(1) == "B";
    }
  }

  /** Walking back over a letter rewrites it and moves one cell left. */
  lemma WalkStep(d: TMDesc, h: nat)
    requires IsHello(d) && h < 12
    ensures RunStep(Walking(d, h)) == Ok(Walking(d, h - 1))
  {
    var tm := Walking(d, h);
    var k := LetterPosition(h);
    assert Get(tm.tape, h) == Word[h];
    assert FirstPosition(tm, k);
    var t := Transition(Back, None, Alphabet[k], Left);
    assert tm.state.transitions[k] == Some(t);
    ResolveHello(d, 12, Alphabet[k], Left);
    StepTaken(tm, k, t, 12);
    WalkNext(d, h);
  }

  /** The machine the final step leads to. */
  lemma StopNext(d: TMDesc)
    requires IsHello(d)
    ensures TM(d, -1 + ToDelta(Right), EnsureSpace(Set(Walking(d, -1).tape, -1, 'B'), -1 + ToDelta(Right)), d.states[13])
         == Stopped(d)
  {
    assert "B"[0 := 'B'] == "B";
  }

  /** On the blank left of the word the machine steps right into `STOPP`. */
  lemma StopStep(d: TMDesc)
    requires IsHello(d)
    ensures RunStep(Walking(d, -1)) == Ok(Stopped(d))
  {
    var tm := Walking(d, -1);
    assert Get(tm.tape, -1) == 'B';
    assert FirstPosition(tm, 9);
    var t := Transition(FinalName, None, 'B', Right);
    assert tm.state.transitions[9] == Some(t);
    ResolveHello(d, 13, 'B', Right);
    StepTaken(tm, 9, t, 13);
    StopNext(d);
  }

  /** `i` steps from writer 0 reach writer `i`. */
  lemma {:induction false} WritingPhase(d: TMDesc, i: nat)
    requires IsHello(d) && i < 12
    ensures Run(Writing(d, 0), i) == Ok(Writing(d, i))
  {
    if i > 0 {
      WritingPhase(d, i - 1);
      WriterStep(d, i - 1);
      RunAdditive(Writing(d, 0), i - 1, 1);
      assert Run(Writing(d, i - 1), 1) == Run(Writing(d, i), 0);
    }
  }

  /** `n` steps of walking back from the last letter. */
  lemma {:induction false} WalkingPhase(d: TMDesc, n: nat)
    requires IsHello(d) && n <= 11
    ensures Run(Walking(d, 10), n) == Ok(Walking(d, 10 - n))
  {
    if n > 0 {
      WalkingPhase(d, n - 1);
      WalkStep(d, 11 - n);
      RunAdditive(Walking(d, 10), n - 1, 1);
      assert Run(Walking(d, 11 - n), 1) == Run(Walking(d, 10 - n), 0);
    }
  }

  /** The whole run on a hello table: 24 steps reach `STOPP`, and 16 more change nothing. */
  lemma {:induction false} HelloSteps(d: TMDesc)
    requires IsHello(d)
    ensures Run(Writing(d, 0), 40) == Ok(Stopped(d))
  {
    var start := Writing(d, 0);
    WritingPhase(d, 11);
    LastWriterStep(d);
    RunAdditive(start, 11, 1);
    assert Run(Writing(d, 11), 1) == Run(Walking(d, 10), 0);
    WalkingPhase(d, 11);
    RunAdditive(start, 12, 11);
    StopStep(d);
    RunAdditive(start, 23, 1);
    assert Run(Walking(d, -1), 1) == Run(Stopped(d), 0);
    FinishedIsFixpoint(Stopped(d), 16);
    RunAdditive(start, 24, 16);
  }

  /** The end-to-end run of tests/hello-empty.rs: after 40 steps on an
      empty input the machine has finished and its output is the word. */
  lemma HelloRun()
    ensures New(HelloDesc, "").Ok?
    ensures Run(New(HelloDesc, "").value, 40).Ok?
    ensures HasFinished(Run(New(HelloDesc, "").value, 40).value)
    ensures TapeOutput(Run(New(HelloDesc, "").value, 40).value) == "HELLO.WORLD!"
  {
    HelloDescIsHello();
    var start := New(HelloDesc, "").value;
    assert start.tape == Tape([], "B");
    assert start == Writing(HelloDesc, 0);
    HelloSteps(HelloDesc);
    var stopped := Stopped(HelloDesc);
    assert TapeOutput(stopped) == ToString(stopped.tape)[1..];
  }

  /** No name or symbol of a hello table uses a character the text format reserves. */
  lemma HelloEncodable(d: TMDesc)
    requires IsHello(d)
    ensures Encodable(d)
  {
    forall i | 0 <= i < 14 ensures EncodableState(d.states[i]) {
      StateEncodable(i);
    }
  }

  /** A writer is encodable when its names and its symbol avoid the reserved characters. */
  lemma WriterEncodable(name: string, next: string, symbol: char, m: Movement)
    requires |name| > 0 && name[0] != '#' && '\t' !in name
    requires ',' !in next && '\t' !in next && symbol != ',' && symbol != '\t'
    ensures EncodableState(Writer(name, next, symbol, m))
  {
  }

  /** No name of the table and no symbol or target of a slot contains a tab
      or a comma, and no name starts with `#`. */
  lemma StateEncodable(i: nat)
    requires i < 14
    ensures EncodableState(HelloState(i))
  {
    if i < 12 {
      var next := StateName(i + 1);
      assert ',' !in next && '\t' !in next;
      assert Word[i] != ',' && Word[i] != '\t';
      WriterEncodable(WriterName(i), next, Word[i], if i < 11 then Right else Left);
    }
  }

  /** Loading a hello table's text, preceded by the empty first line the
      test's string literal starts with, gives the table back. */
  lemma HelloLoads(d: TMDesc)
    requires IsHello(d)
    ensures FromString([""] + ToText(d)) == Ok(d)
  {
    var text := ToText(d);
    HelloEncodable(d);
    ToTextRoundTrip(d);
    assert ([""] + text)[1..] == text;
    assert AcceptedLines([""] + text) == AcceptedLines(text);
  }

  // ---------------------------------------------------------------------
  // The test's text
  // ---------------------------------------------------------------------

  /** The string literal of tests/hello-empty.rs cut into lines: an empty
      first line, the alphabet line, then one line per state. Each line is
      written as its first field followed by one tab-and-field piece per
      further field. */
  const HelloTm: seq<string> := [
    "",
    "\tH" + "\tE" + "\tL" + "\tO" + "\t." + "\tW" + "\tR" + "\tD" + "\t!" + "\tB",
    "q0" + "\t-" + "\t-" + "\t-" + "\t-" + "\t-" + "\t-" + "\t-" + "\t-" + "\t-" + "\tq1,H,R",
    "q1" + "\t-" + "\t-" + "\t-" + "\t-" + "\t-" + "\t-" + "\t-" + "\t-" + "\t-" + "\tq2,E,R",
    "q2" + "\t-" + "\t-" + "\t-" + "\t-" + "\t-" + "\t-" + "\t-" + "\t-" + "\t-" + "\tq3,L,R",
    "q3" + "\t-" + "\t-" + "\t-" + "\t-" + "\t-" + "\t-" + "\t-" + "\t-" + "\t-" + "\tq4,L,R",
    "q4" + "\t-" + "\t-" + "\t-" + "\t-" + "\t-" + "\t-" + "\t-" + "\t-" + "\t-" + "\tq5,O,R",
    "q5" + "\t-" + "\t-" + "\t-" + "\t-" + "\t-" + "\t-" + "\t-" + "\t-" + "\t-" + "\tq6,.,R",
    "q6" + "\t-" + "\t-" + "\t-" + "\t-" + "\t-" + "\t-" + "\t-" + "\t-" + "\t-" + "\tq7,W,R",
    "q7" + "\t-" + "\t-" + "\t-" + "\t-" + "\t-" + "\t-" + "\t-" + "\t-" + "\t-" + "\tq8,O,R",
    "q8" + "\t-" + "\t-" + "\t-" + "\t-" + "\t-" + "\t-" + "\t-" + "\t-" + "\t-" + "\tq9,R,R",
    "q9" + "\t-" + "\t-" + "\t-" + "\t-" + "\t-" + "\t-" + "\t-" + "\t-" + "\t-" + "\tqA,L,R",
    "qA" + "\t-" + "\t-" + "\t-" + "\t-" + "\t-" + "\t-" + "\t-" + "\t-" + "\t-" + "\tqB,D,R",
    "qB" + "\t-" + "\t-" + "\t-" + "\t-" + "\t-" + "\t-" + "\t-" + "\t-" + "\t-" + "\tq\U{2190},!,L",
    "q\U{2190}" + "\tq\U{2190},H,L" + "\tq\U{2190},E,L" + "\tq\U{2190},L,L" + "\tq\U{2190},O,L" + "\tq\U{2190},.,L" + "\tq\U{2190},W,L" + "\tq\U{2190},R,L" + "\tq\U{2190},D,L" + "\tq\U{2190},!,L" + "\tSTOPP,B,R",
    "STOPP"
  ]

  /** The text of an empty slot. */
  lemma DashPiece()
    ensures ['\t'] + CellText(None) == "\t-"
  {
  }

  /** The text of a slot going to a two-letter state `q` plus `c`. */
  lemma GoPiece(c: char, symbol: char, m: Movement)
    ensures ['\t'] + CellText(Go(['q', c], symbol, m)) == ['\t', 'q', c, ',', symbol, ',', ToChar(m)]
  {
  }

  /** The line of a writer whose next state is `q` plus `c`. */
  lemma WriterLine(name: string, c: char, symbol: char, m: Movement)
    ensures Line(name, Writer(name, ['q', c], symbol, m).transitions, 10)
         == name + "\t-" + "\t-" + "\t-" + "\t-" + "\t-" + "\t-" + "\t-" + "\t-" + "\t-" + ['\t', 'q', c, ',', symbol, ',', ToChar(m)]
  {
    var cells := Writer(name, ['q', c], symbol, m).transitions;
    DashPiece();
    GoPiece(c, symbol, m);
    assert Line(name, cells, 1) == name + "\t-";
    assert Line(name, cells, 2) == name + "\t-" + "\t-";
    assert Line(name, cells, 3) == name + "\t-" + "\t-" + "\t-";
    assert Line(name, cells, 4) == name + "\t-" + "\t-" + "\t-" + "\t-";
    assert Line(name, cells, 5) == name + "\t-" + "\t-" + "\t-" + "\t-" + "\t-";
    assert Line(name, cells, 6) == name + "\t-" + "\t-" + "\t-" + "\t-" + "\t-" + "\t-";
    assert Line(name, cells, 7) == name + "\t-" + "\t-" + "\t-" + "\t-" + "\t-" + "\t-" + "\t-";
    assert Line(name, cells, 8) == name + "\t-" + "\t-" + "\t-" + "\t-" + "\t-" + "\t-" + "\t-" + "\t-";
    assert Line(name, cells, 9) == name + "\t-" + "\t-" + "\t-" + "\t-" + "\t-" + "\t-" + "\t-" + "\t-" + "\t-";
  }

  /** The character after `q` in the name of the state writer `i` goes to. */
  function NextDigit(i: nat): char
    requires i < 12
  {
    if i < 11 then Digit(i + 1) else '\U{2190}'
  }

  /** The movement of writer `i`. */
  function WriterMove(i: nat): Movement
  {
    if i < 11 then Right else Left
  }

  /** The text of writer `i`, piece by piece. */
  lemma WriterTextShape(i: nat)
    requires i < 12
    ensures Join(StateFields(HelloState(i)), '\t')
         == WriterName(i) + "\t-" + "\t-" + "\t-" + "\t-" + "\t-" + "\t-" + "\t-" + "\t-" + "\t-" + ['\t', 'q', NextDigit(i), ',', Word[i], ',', ToChar(WriterMove(i))]
  {
    assert HelloState(i) == Writer(WriterName(i), ['q', NextDigit(i)], Word[i], WriterMove(i));
    StateLineFromLeft(HelloState(i));
    WriterLine(WriterName(i), NextDigit(i), Word[i], WriterMove(i));
  }

  /** Lines 2 to 13 of the test's text, piece by piece. */
  lemma WriterTexts(i: nat)
    requires i < 12
    ensures HelloTm[i + 2] == WriterName(i) + "\t-" + "\t-" + "\t-" + "\t-" + "\t-" + "\t-" + "\t-" + "\t-" + "\t-" + ['\t', 'q', NextDigit(i), ',', Word[i], ',', ToChar(WriterMove(i))]
  {
    // One branch per writer: each fixes `i` to a literal, so that the
    // literal line and its pieces are evaluated case by case.
    if i == 0 {
    } else if i == 1 {
    } else if i == 2 {
    } else if i == 3 {
    } else if i == 4 {
    } else if i == 5 {
    } else if i == 6 {
    } else if i == 7 {
    } else if i == 8 {
    } else if i == 9 {
    } else if i == 10 {
    }
  }

  /** Line `i + 2` of the test's text is the text of writer `i`. */
  lemma WriterText(i: nat)
    requires i < 12
    ensures HelloTm[i + 2] == Join(StateFields(HelloState(i)), '\t')
  {
    WriterTextShape(i);
    WriterTexts(i);
  }

  /** The text of a walk-back slot on symbol `x`. */
  lemma BackPiece(x: char)
    ensures ['\t'] + CellText(Go(Back, x, Left)) == ['\t', 'q', '\U{2190}', ',', x, ',', 'L']
  {
  }

  /** The walk-back state's line, piece by piece. */
  lemma BackLine()
    ensures Line(Back, BackState().transitions, 10) == "q\U{2190}" + "\tq\U{2190},H,L" + "\tq\U{2190},E,L" + "\tq\U{2190},L,L" + "\tq\U{2190},O,L" + "\tq\U{2190},.,L" + "\tq\U{2190},W,L" + "\tq\U{2190},R,L" + "\tq\U{2190},D,L" + "\tq\U{2190},!,L" + "\tSTOPP,B,R"
  {
    BackPiece('H'); BackPiece('E'); BackPiece('L'); BackPiece('O'); BackPiece('.'); BackPiece('W'); BackPiece('R'); BackPiece('D'); BackPiece('!');
    assert ['\t'] + CellText(Go(FinalName, 'B', Right)) == "\tSTOPP,B,R";
  }

  /** The alphabet line, piece by piece. */
  lemma AlphabetLine()
    ensures SymbolLine(Alphabet, 10) == "\tH" + "\tE" + "\tL" + "\tO" + "\t." + "\tW" + "\tR" + "\tD" + "\t!" + "\tB"
  {
    assert SymbolLine(Alphabet, 1) == "\tH";
    assert SymbolLine(Alphabet, 2) == "\tH" + "\tE";
    assert SymbolLine(Alphabet, 3) == "\tH" + "\tE" + "\tL";
    assert SymbolLine(Alphabet, 4) == "\tH" + "\tE" + "\tL" + "\tO";
    assert SymbolLine(Alphabet, 5) == "\tH" + "\tE" + "\tL" + "\tO" + "\t.";
    assert SymbolLine(Alphabet, 6) == "\tH" + "\tE" + "\tL" + "\tO" + "\t." + "\tW";
    assert SymbolLine(Alphabet, 7) == "\tH" + "\tE" + "\tL" + "\tO" + "\t." + "\tW" + "\tR";
    assert SymbolLine(Alphabet, 8) == "\tH" + "\tE" + "\tL" + "\tO" + "\t." + "\tW" + "\tR" + "\tD";
    assert SymbolLine(Alphabet, 9) == "\tH" + "\tE" + "\tL" + "\tO" + "\t." + "\tW" + "\tR" + "\tD" + "\t!";
  }

  /** Line 1 of the test's text, piece by piece. */
  lemma AlphabetTm()
    ensures HelloTm[1] == "\tH" + "\tE" + "\tL" + "\tO" + "\t." + "\tW" + "\tR" + "\tD" + "\t!" + "\tB"
  {
  }

  /** Line 1 of the test's text is a hello table's alphabet line. */
  lemma AlphabetText(d: TMDesc)
    requires IsHello(d)
    ensures HelloTm[1] == Join(AlphabetFields(d.inputSymbols), '\t')
  {
    AlphabetLineFromLeft(d.inputSymbols);
    AlphabetLine();
    AlphabetTm();
  }

  /** Line 14 of the test's text, piece by piece. */
  lemma BackTm()
    ensures HelloTm[14] == "q\U{2190}" + "\tq\U{2190},H,L" + "\tq\U{2190},E,L" + "\tq\U{2190},L,L" + "\tq\U{2190},O,L" + "\tq\U{2190},.,L" + "\tq\U{2190},W,L" + "\tq\U{2190},R,L" + "\tq\U{2190},D,L" + "\tq\U{2190},!,L" + "\tSTOPP,B,R"
  {
  }

  /** Line 14 of the test's text is the walk-back state's line. */
  lemma BackText(i: nat)
    requires i == 12
    ensures HelloTm[i + 2] == Join(StateFields(HelloState(i)), '\t')
  {
    StateLineFromLeft(HelloState(i));
    BackLine();
    BackTm();
  }

  /** Line 15 of the test's text is the final state's line, its name alone. */
  lemma StopText(i: nat)
    requires i == 13
    ensures HelloTm[i + 2] == Join(StateFields(HelloState(i)), '\t')
  {
    StateLineFromLeft(HelloState(i));
  }

  /** The last two lines of the test's text are the back and stop states' lines. */
  lemma SpecialText(i: nat)
    requires 12 <= i < 14
    ensures HelloTm[i + 2] == Join(StateFields(HelloState(i)), '\t')
  {
    if i == 12 {
      BackText(i);
    } else {
      StopText(i);
    }
  }

  /** Line `i + 2` of the test's text is the line of state `i`. */
  lemma StateText(i: nat)
    requires i < 14
    ensures HelloTm[i + 2] == Join(StateFields(HelloState(i)), '\t')
  {
    if i < 12 {
      WriterText(i);
    } else {
      SpecialText(i);
    }
  }

  /** Every state line of the test's text is the line of the state at that
      position of a hello table. */
  lemma StateLinesOf(d: TMDesc)
    requires IsHello(d)
    ensures forall i :: 0 <= i < 14 ==> HelloTm[i + 2] == Join(StateFields(d.states[i]), '\t')
  {
    forall i | 0 <= i < 14 ensures HelloTm[i + 2] == Join(StateFields(d.states[i]), '\t') {
      assert d.states[i] == HelloState(i);
      StateText(i);
    }
  }

  /** The test's text has sixteen lines, the first one empty. */
  lemma HelloTmSize()
    ensures |HelloTm| == 16 && HelloTm[0] == ""
  {
  }

  /** A text whose first line is empty, whose second is a description's
      alphabet line and whose remaining lines are its state lines in order
      is an empty line followed by the description's text. */
  lemma BlankThenText(text: seq<string>, d: TMDesc)
    requires |text| == |d.states| + 2 && text[0] == ""
    requires text[1] == Join(AlphabetFields(d.inputSymbols), '\t')
    requires forall i :: 0 <= i < |d.states| ==> text[i + 2] == Join(StateFields(d.states[i]), '\t')
    ensures text == [""] + ToText(d)
  {
    var lines := [""] + ToText(d);
    assert |text| == |lines|;
    forall k | 0 <= k < |text| ensures text[k] == lines[k] {
      if k >= 2 {
        assert text[k] == text[(k - 2) + 2];
      }
    }
  }

  /** The test's text is an empty line followed by the text of a hello table. */
  lemma HelloTmIsText(d: TMDesc)
    requires IsHello(d)
    ensures HelloTm == [""] + ToText(d)
  {
    HelloTmSize();
    AlphabetText(d);
    StateLinesOf(d);
    BlankThenText(HelloTm, d);
  }

  /** `TMDesc::from_string` on the test's text gives the hello table. */
  lemma HelloTmLoads()
    ensures FromString(HelloTm) == Ok(HelloDesc)
  {
    HelloDescIsHello();
    HelloTmIsText(HelloDesc);
    HelloLoads(HelloDesc);
  }

  /** `test_hello` as a whole: the description loaded from the test's text,
      started on an empty input and run for 40 steps, has finished and
      outputs `HELLO.WORLD!`. */
  lemma HelloTest()
    ensures FromString(HelloTm).Ok?
    ensures New(FromString(HelloTm).value, "").Ok?
    ensures Run(New(FromString(HelloTm).value, "").value, 40).Ok?
    ensures HasFinished(Run(New(FromString(HelloTm).value, "").value, 40).value)
    ensures TapeOutput(Run(New(FromString(HelloTm).value, "").value, 40).value) == "HELLO.WORLD!"
  {
    HelloTmLoads();
    HelloRun();
  }
}

=== FILE: machine.dfy ===
/** A running machine (`TM` in src/lib.rs): the description it runs, the
    head offset, its own tape and the current state. `TM::new` puts the head
    on offset 0 of the input in the first state; `run_step` performs one
    transition; the caller decides how many steps to run.
 */
module Machine {
  import opened Wrappers
  import opened Text
  import opened Moves
  import opened Description
  import opened Resolution
  import opened Tapes

  /** The library keeps a reference into `desc.states`; the model keeps the state itself. */
  datatype TM = TM(desc: TMDesc, head: int, tape: Tape, state: State)

  /** The invariant `min <= head < max` every machine keeps. */
  predicate Valid(tm: TM)
  {
    InRange(tm.tape, tm.head)
  }

  /** `TM::new`: the input on offsets 0.., grown so that offset 0 exists,
      head on 0, in the first state. A description without states is the
      library's out-of-range panic on `states[0]`. */
  function New(desc: TMDesc, input: string): (r: Result<TM>)
    ensures r.Ok? <==> |desc.states| > 0
    ensures r.Err? ==> r.error == NoStates
    ensures r.Ok? ==> Valid(r.value) && r.value.head == 0
    ensures r.Ok? ==> r.value.desc == desc && r.value.state == desc.states[0]
    ensures r.Ok? ==> Min(r.value.tape) == 0 && Max(r.value.tape) == if |input| == 0 then 1 else |input|
    ensures r.Ok? ==> forall i :: 0 <= i < |input| ==> Get(r.value.tape, i) == input[i]
    ensures r.Ok? && |input| == 0 ==> Get(r.value.tape, 0) == Fill
  {
    if |desc.states| == 0 then Err(NoStates)
    else Ok(TM(desc, 0, EnsureSpace(FromStr(input), 0), desc.states[0]))
  }

  /** `TM::has_finished`: the current state is the final one. */
  predicate HasFinished(tm: TM)
    ensures HasFinished(tm) <==> tm.state.name == "STOPP"
  {
    IsFinal(tm.state)
  }

  /** The transition `run_step` would take: the slot of the current state at
      the first alphabet position holding the symbol under the head. */
  function CurrentTransition(tm: TM): (r: Result<Transition>)
    requires Valid(tm)
    ensures Get(tm.tape, tm.head) !in tm.desc.inputSymbols ==> r == Err(SymbolNotFound(Get(tm.tape, tm.head)))
    ensures r.Ok? <==> exists k :: 0 <= k < |tm.desc.inputSymbols| && SlotOf(tm, k) && tm.state.transitions[k].Some?
    ensures r.Ok? ==> exists k :: 0 <= k < |tm.desc.inputSymbols| && SlotOf(tm, k) && tm.state.transitions[k] == Some(r.value)
    ensures r.Err? && Get(tm.tape, tm.head) in tm.desc.inputSymbols ==>
      exists k :: 0 <= k < |tm.desc.inputSymbols| && FirstPosition(tm, k) &&
        r.error == (if k < |tm.state.transitions| then NoTransition(tm.state.name, k) else SlotOutOfRange(tm.state.name, k))
  {
    var sym := Get(tm.tape, tm.head);
    match IndexOf(tm.desc.inputSymbols, sym)
    case None => Err(SymbolNotFound(sym))
    case Some(k) =>
      assert FirstPosition(tm, k);
      if k >= |tm.state.transitions| then Err(SlotOutOfRange(tm.state.name, k))
      else match tm.state.transitions[k]
        case None => Err(NoTransition(tm.state.name, k))
        case Some(t) => Ok(t)
  }

  /** `k` is the first alphabet position of the symbol under the head. */
  predicate FirstPosition(tm: TM, k: nat)
    requires Valid(tm)
  {
    && k < |tm.desc.inputSymbols|
    && tm.desc.inputSymbols[k] == Get(tm.tape, tm.head)
    && forall j :: 0 <= j < k ==> tm.desc.inputSymbols[j] != Get(tm.tape, tm.head)
  }

  /** `k` is that position and the current state has a slot for it. */
  predicate SlotOf(tm: TM, k: nat)
    requires Valid(tm)
  {
    FirstPosition(tm, k) && k < |tm.state.transitions|
  }

  /** `TM::run_step`. A finished machine is left as it is. Otherwise the
      transition for the symbol under the head is taken: its symbol replaces
      that cell, the head moves by the movement's delta, the tape grows to
      cover the new head, and the target state (resolved by cached index or
      by name) becomes current. Every failure happens before any change. */
  function RunStep(tm: TM): (r: Result<TM>)
    requires Valid(tm)
    ensures HasFinished(tm) ==> r == Ok(tm)
    ensures r.Ok? ==> Valid(r.value) && r.value.desc == tm.desc
    ensures r.Ok? ==> r.value.state in tm.desc.states || r.value == tm
    ensures !HasFinished(tm) && CurrentTransition(tm).Err? ==> r == Err(CurrentTransition(tm).error)
    ensures !HasFinished(tm) && CurrentTransition(tm).Ok? ==>
      var t := CurrentTransition(tm).value;
      var target := ResolveStateIndex(tm.desc, t);
      && (target.Err? ==> r == Err(target.error))
      && (target.Ok? && target.value >= |tm.desc.states| ==> r == Err(StateIndexOutOfRange(target.value)))
      && (target.Ok? && target.value < |tm.desc.states| ==> r.Ok?)
      && (r.Ok? ==>
            && target.Ok? && target.value < |tm.desc.states|
            && r.value.state == tm.desc.states[target.value]
            && r.value.head == tm.head + ToDelta(t.movement)
            && Min(r.value.tape) == (if r.value.head < Min(tm.tape) then r.value.head else Min(tm.tape))
            && Max(r.value.tape) == (if r.value.head >= Max(tm.tape) then r.value.head + 1 else Max(tm.tape))
            && Get(r.value.tape, tm.head) == t.symbol
            && (forall j :: InRange(tm.tape, j) && j != tm.head ==> Get(r.value.tape, j) == Get(tm.tape, j))
            && (forall j :: InRange(r.value.tape, j) && !InRange(tm.tape, j) ==> Get(r.value.tape, j) == Fill))
  {
    if HasFinished(tm) then Ok(tm)
    else
      var t :- CurrentTransition(tm);
      var target :- ResolveStateIndex(tm.desc, t);
      if target >= |tm.desc.states| then Err(StateIndexOutOfRange(target))
      else
        var head := tm.head + ToDelta(t.movement);
        Ok(TM(tm.desc, head, EnsureSpace(Set(tm.tape, tm.head, t.symbol), head), tm.desc.states[target]))
  }

  /** The step `run_step` takes when the symbol under the head first occurs
      at alphabet position `k`, the current state's slot `k` holds `t`, and
      `t`'s target resolves to state `j`. */
  lemma StepTaken(tm: TM, k: nat, t: Transition, j: nat)
    requires Valid(tm) && !HasFinished(tm)
    requires FirstPosition(tm, k) && k < |tm.state.transitions| && tm.state.transitions[k] == Some(t)
    requires ResolveStateIndex(tm.desc, t) == Ok(j) && j < |tm.desc.states|
    ensures RunStep(tm) == Ok(TM(tm.desc, tm.head + ToDelta(t.movement),
                                 EnsureSpace(Set(tm.tape, tm.head, t.symbol), tm.head + ToDelta(t.movement)),
                                 tm.desc.states[j]))
  {
    var found := IndexOf(tm.desc.inputSymbols, Get(tm.tape, tm.head));
    assert found == Some(k);
  }

  /** `n` calls of `run_step`, stopping at the first failure. */
  function Run(tm: TM, n: nat): (r: Result<TM>)
    requires Valid(tm)
    ensures r.Ok? ==> Valid(r.value) && r.value.desc == tm.desc
    decreases n
  {
    if n == 0 then Ok(tm)
    else
      var next :- RunStep(tm);
      Run(next, n - 1)
  }

  /** Once finished, any number of further steps changes nothing. */
  lemma {:induction false} FinishedIsFixpoint(tm: TM, n: nat)
    requires Valid(tm) && HasFinished(tm)
    ensures Run(tm, n) == Ok(tm)
    decreases n
  {
    if n > 0 {
      FinishedIsFixpoint(tm, n - 1);
    }
  }

  /** Running `m` steps and then `n` more is running `m + n` steps. */
  lemma {:induction false} RunAdditive(tm: TM, m: nat, n: nat)
    requires Valid(tm)
    ensures Run(tm, m + n) == (match Run(tm, m) case Ok(mid) => Run(mid, n) case Err(e) => Err(e))
    decreases m
  {
    if m > 0 {
      var step := RunStep(tm);
      if step.Ok? {
        var next := step.value;
        assert Run(tm, m + n) == Run(next, (m - 1) + n);
        assert Run(tm, m) == Run(next, m - 1);
        RunAdditive(next, m - 1, n);
      } else {
        assert Run(tm, m + n) == Err(step.error) == Run(tm, m);
      }
    }
  }

  /** `TM::get_tape_output` as a value: the cells from the head up to the
      largest offset. */
  function TapeOutput(tm: TM): (s: string)
    requires Valid(tm)
    ensures s == ToString(tm.tape)[tm.head - Min(tm.tape)..]
  {
    RenderIsSlice(tm.tape, tm.head, Max(tm.tape));
    Render(tm.tape, tm.head, Max(tm.tape))
  }

  /** `TM::get_tape_output`: collects `tape[i]` for `i` from the head up to
      `max()`, exclusive. */
  method GetTapeOutput(tm: TM) returns (s: string)
    requires Valid(tm)
    ensures |s| == Max(tm.tape) - tm.head
    ensures forall k :: 0 <= k < |s| ==> s[k] == Get(tm.tape, tm.head + k)
    ensures s == ToString(tm.tape)[tm.head - Min(tm.tape)..]
  {
    s := [];
    var i := tm.head;
    while i < Max(tm.tape)
      invariant tm.head <= i <= Max(tm.tape)
      invariant |s| == i - tm.head
      invariant forall k :: 0 <= k < |s| ==> s[k] == Get(tm.tape, tm.head + k)
    {
      s := s + [Get(tm.tape, i)];
      i := i + 1;
    }
  }

  // ---------------------------------------------------------------------
  // Resolution does not change what a machine does
  // ---------------------------------------------------------------------

  /** `m2` runs the resolved description `r` and mirrors `m1`, which runs
      the original `d`: same head, same tape, and the current states sit at
      the same position of their tables. */
  predicate Mirrors(d: TMDesc, r: TMDesc, m1: TM, m2: TM)
  {
    && m1.desc == d && m2.desc == r
    && m1.head == m2.head && m1.tape == m2.tape
    && exists i :: 0 <= i < |d.states| && i < |r.states| && m1.state == d.states[i] && m2.state == r.states[i]
  }

  /** Two machines on the same tape whose current states differ only by
      resolution against `d` see the same transition, up to its cached index. */
  lemma CurrentAfterResolve(d: TMDesc, m1: TM, m2: TM)
    requires Valid(m1) && m1.head == m2.head && m1.tape == m2.tape
    requires m2.desc.inputSymbols == m1.desc.inputSymbols
    requires StateResolvedFrom(d, m1.state, m2.state)
    ensures Valid(m2)
    ensures CurrentTransition(m1).Err? ==> CurrentTransition(m2) == CurrentTransition(m1)
    ensures CurrentTransition(m1).Ok? ==>
      var t := CurrentTransition(m1).value;
      && ResolveStateIndex(d, t).Ok?
      && CurrentTransition(m2) == Ok(t.(stateIndex := Some(ResolveStateIndex(d, t).value)))
  {
    var sym := Get(m1.tape, m1.head);
    match IndexOf(m1.desc.inputSymbols, sym)
    case None =>
    case Some(k) =>
      if k < |m1.state.transitions| {
        assert ResolvedFrom(d, m1.state.transitions[k], m2.state.transitions[k]);
      }
  }

  /** `r` is `d` after a successful resolution pass. */
  predicate ResolvedTable(d: TMDesc, r: TMDesc)
  {
    && r.inputSymbols == d.inputSymbols
    && |r.states| == |d.states|
    && forall i :: 0 <= i < |d.states| ==> StateResolvedFrom(d, d.states[i], r.states[i])
  }

  /** A step of `m2` over `r` mirrors the step of `m1` over `d`. */
  lemma StepMirrored(d: TMDesc, r: TMDesc, m1: TM, m2: TM, i: nat)
    requires ResolvedTable(d, r)
    requires Valid(m1) && m1.desc == d && m2.desc == r && m1.head == m2.head && m1.tape == m2.tape
    requires i < |d.states| && m1.state == d.states[i] && m2.state == r.states[i]
    ensures Valid(m2)
    ensures HasFinished(m1) == HasFinished(m2)
    ensures RunStep(m1).Ok? == RunStep(m2).Ok?
    ensures RunStep(m1).Err? ==> RunStep(m1).error == RunStep(m2).error
    ensures RunStep(m1).Ok? ==> Mirrors(d, r, RunStep(m1).value, RunStep(m2).value)
  {
    CurrentAfterResolve(d, m1, m2);
    if !HasFinished(m1) && CurrentTransition(m1).Ok? {
      var t1 := CurrentTransition(m1).value;
      var target := ResolveStateIndex(d, t1).value;
      assert ResolveStateIndex(r, CurrentTransition(m2).value) == Ok(target);
      if target < |d.states| {
        assert RunStep(m1).value.state == d.states[target];
        assert RunStep(m2).value.state == r.states[target];
      }
    }
  }

  /** One step of a machine over the resolved description does what the
      same step over the unresolved description does. */
  lemma StepAfterResolve(d: TMDesc, m1: TM, m2: TM)
    requires ResolveAll(d).Ok?
    requires Valid(m1)
    requires Mirrors(d, ResolveAll(d).value, m1, m2)
    ensures Valid(m2)
    ensures HasFinished(m1) == HasFinished(m2)
    ensures RunStep(m1).Ok? == RunStep(m2).Ok?
    ensures RunStep(m1).Err? ==> RunStep(m1).error == RunStep(m2).error
    ensures RunStep(m1).Ok? ==> Mirrors(d, ResolveAll(d).value, RunStep(m1).value, RunStep(m2).value)
  {
    var r := ResolveAll(d).value;
    var i :| 0 <= i < |d.states| && i < |r.states| && m1.state == d.states[i] && m2.state == r.states[i];
    StepMirrored(d, r, m1, m2, i);
  }

  /** Any number of steps of `m2` over `r` mirror those of `m1` over `d`. */
  lemma {:induction false} RunMirrored(d: TMDesc, r: TMDesc, m1: TM, m2: TM, n: nat)
    requires ResolvedTable(d, r)
    requires Valid(m1) && Mirrors(d, r, m1, m2)
    ensures Valid(m2)
    ensures Run(m1, n).Ok? == Run(m2, n).Ok?
    ensures Run(m1, n).Err? ==> Run(m1, n).error == Run(m2, n).error
    ensures Run(m1, n).Ok? ==> Mirrors(d, r, Run(m1, n).value, Run(m2, n).value)
    decreases n
  {
    var i :| 0 <= i < |d.states| && i < |r.states| && m1.state == d.states[i] && m2.state == r.states[i];
    StepMirrored(d, r, m1, m2, i);
    if n > 0 {
      var s1, s2 := RunStep(m1), RunStep(m2);
      if s1.Ok? {
        RunMirrored(d, r, s1.value, s2.value, n - 1);
        assert Run(m1, n) == Run(s1.value, n - 1);
        assert Run(m2, n) == Run(s2.value, n - 1);
      } else {
        assert Run(m1, n) == Err(s1.error);
        assert Run(m2, n) == Err(s2.error);
      }
    }
  }

  /** Any number of steps over the resolved description does what the same
      steps over the unresolved one do; in particular the batch pass never
      turns a run that succeeds into one that fails, or back. */
  lemma RunAfterResolve(d: TMDesc, m1: TM, m2: TM, n: nat)
    requires ResolveAll(d).Ok?
    requires Valid(m1)
    requires Mirrors(d, ResolveAll(d).value, m1, m2)
    ensures Valid(m2)
    ensures Run(m1, n).Ok? == Run(m2, n).Ok?
    ensures Run(m1, n).Err? ==> Run(m1, n).error == Run(m2, n).error
    ensures Run(m1, n).Ok? ==> Mirrors(d, ResolveAll(d).value, Run(m1, n).value, Run(m2, n).value)
  {
    RunMirrored(d, ResolveAll(d).value, m1, m2, n);
  }

  /** Starting both machines from the same input, the unresolved and the
      resolved description run alike. */
  lemma NewAfterResolve(d: TMDesc, input: string)
    requires ResolveAll(d).Ok?
    requires New(d, input).Ok?
    ensures New(ResolveAll(d).value, input).Ok?
    ensures Mirrors(d, ResolveAll(d).value, New(d, input).value, New(ResolveAll(d).value, input).value)
  {
    var r := ResolveAll(d).value;
    assert New(d, input).value.state == d.states[0];
    assert New(r, input).value.state == r.states[0];
  }
}

=== FILE: movement.dfy ===
/** Head movements (`Movement` in src/lib.rs) and their one-letter codes. */
module Moves {
  import opened Wrappers

  /** `Stay` is the library's `Movement::None`: the head does not move. */
  datatype Movement = Left | Right | Stay

  /** The code the description format uses for each movement. */
  function ToChar(m: Movement): char
  {
    match m
    case Left => 'L'
    case Right => 'R'
    case Stay => 'N'
  }

  /** Decodes a movement code; any character other than `L`, `R` or `N`
      is the library's "not a valid movement" panic. */
  function FromChar(c: char): (r: Result<Movement>)
    ensures r.Ok? <==> c in {'L', 'R', 'N'}
    ensures r.Ok? ==> ToChar(r.value) == c
    ensures r.Err? ==> r.error == BadMovement(c)
  {
    match c
    case 'L' => Ok(Left)
    case 'R' => Ok(Right)
    case 'N' => Ok(Stay)
    case _ => Err(BadMovement(c))
  }

  /** Decoding the code of a movement gives the movement back. */
  lemma FromCharToChar(m: Movement)
    ensures FromChar(ToChar(m)) == Ok(m)
  {
  }

  /** How far the head moves: one cell left, one cell right, or not at all. */
  function ToDelta(m: Movement): (d: int)
    ensures -1 <= d <= 1
    ensures d == -1 <==> m == Left
    ensures d == 1 <==> m == Right
    ensures d == 0 <==> m == Stay
  {
    match m
    case Left => -1
    case Stay => 0
    case Right => 1
  }
}

=== FILE: resolution.dfy ===
/** State-name resolution (`resolve_state_index`, `resolve_all_state_indices`
    in src/lib.rs): a transition names its target state; resolution finds the
    first state of the table with that name, unless the transition already
    caches an index, in which case the cached index is trusted unchecked.
 */
module Resolution {
  import opened Wrappers
  import opened Text
  import opened Description

  /** The state names, in table order. */
  function Names(states: seq<State>): (r: seq<string>)
    ensures |r| == |states| && forall i :: 0 <= i < |states| ==> r[i] == states[i].name
  {
    seq(|states|, i requires 0 <= i < |states| => states[i].name)
  }

  /** `resolve_state_index`: the cached index if there is one, else the
      position of the first state named like the target. */
  function ResolveStateIndex(d: TMDesc, t: Transition): (r: Result<nat>)
    ensures t.stateIndex.Some? ==> r == Ok(t.stateIndex.value)
    ensures t.stateIndex.None? ==> (r.Ok? <==> exists i :: 0 <= i < |d.states| && d.states[i].name == t.state)
    ensures t.stateIndex.None? && r.Ok? ==>
      && r.value < |d.states|
      && d.states[r.value].name == t.state
      && forall j :: 0 <= j < r.value ==> d.states[j].name != t.state
    ensures r.Err? ==> r.error == StateNotFound(t.state)
  {
    match t.stateIndex
    case Some(i) => Ok(i)
    case None =>
      var names := Names(d.states);
      match IndexOf(names, t.state)
      case None =>
        assert forall i :: 0 <= i < |d.states| ==> names[i] == d.states[i].name;
        Err(StateNotFound(t.state))
      case Some(i) => Ok(i)
  }

  /** Whether a slot can be resolved against `orig`: empty, or its target resolves. */
  predicate Resolvable(orig: TMDesc, c: Option<Transition>)
  {
    c.Some? ==> ResolveStateIndex(orig, c.value).Ok?
  }

  /** `c'` is slot `c` after resolution against `orig`: an empty slot stays
      empty; a transition keeps its target name, symbol and movement and
      gains the index its target resolves to. */
  predicate ResolvedFrom(orig: TMDesc, c: Option<Transition>, c': Option<Transition>)
  {
    match c
    case None => c'.None?
    case Some(t) =>
      var i := ResolveStateIndex(orig, t);
      i.Ok? && c' == Some(t.(stateIndex := Some(i.value)))
  }

  /** Slot `k` is the first of `cells` whose target does not resolve. */
  predicate FirstUnresolvableCell(orig: TMDesc, cells: seq<Option<Transition>>, k: int)
  {
    && 0 <= k < |cells|
    && !Resolvable(orig, cells[k])
    && forall m :: 0 <= m < k ==> Resolvable(orig, cells[m])
  }

  /** Resolves every slot of one state, reading the pre-pass description
      `orig`; the first slot whose target is missing stops the pass. */
  function ResolveCells(orig: TMDesc, cells: seq<Option<Transition>>): (r: Result<seq<Option<Transition>>>)
    ensures r.Ok? <==> forall k :: 0 <= k < |cells| ==> Resolvable(orig, cells[k])
    ensures r.Ok? ==> |r.value| == |cells| && forall k :: 0 <= k < |cells| ==> ResolvedFrom(orig, cells[k], r.value[k])
    ensures r.Err? ==> exists k :: FirstUnresolvableCell(orig, cells, k) && r.error == StateNotFound(cells[k].value.state)
  {
    if |cells| == 0 then Ok([])
    else
      var head: Option<Transition> :-
        match cells[0]
        case None => Ok(None)
        case Some(t) =>
          var i :- ResolveStateIndex(orig, t);
          Ok(Some(t.(stateIndex := Some(i))));
      var tail := ResolveCells(orig, cells[1..]);
      if tail.Err? then
        ghost var k :| FirstUnresolvableCell(orig, cells[1..], k) && tail.error == StateNotFound(cells[1..][k].value.state);
        assert cells[1..][k] == cells[k + 1];
        assert FirstUnresolvableCell(orig, cells, k + 1) by {
          forall m | 0 <= m < k + 1 ensures Resolvable(orig, cells[m]) {
            if m > 0 { assert cells[m] == cells[1..][m - 1]; }
          }
        }
        Err(tail.error)
      else
        assert forall k :: 1 <= k < |cells| ==> cells[k] == cells[1..][k - 1];
        Ok([head] + tail.value)
  }

  /** `s'` is state `s` after resolution: same name, slot-wise resolved. */
  predicate StateResolvedFrom(orig: TMDesc, s: State, s': State)
  {
    && s'.name == s.name
    && |s'.transitions| == |s.transitions|
    && forall k :: 0 <= k < |s.transitions| ==> ResolvedFrom(orig, s.transitions[k], s'.transitions[k])
  }

  /** Whether every slot of a state can be resolved. */
  predicate StateResolvable(orig: TMDesc, s: State)
  {
    forall k :: 0 <= k < |s.transitions| ==> Resolvable(orig, s.transitions[k])
  }

  /** Slot `k` of state `i` is the first slot, in state-then-slot order,
      whose target does not resolve. */
  predicate FirstUnresolvable(orig: TMDesc, states: seq<State>, i: int, k: int)
  {
    && 0 <= i < |states|
    && (forall j :: 0 <= j < i ==> StateResolvable(orig, states[j]))
    && FirstUnresolvableCell(orig, states[i].transitions, k)
  }

  /** Resolves every state of `states`, reading the pre-pass description
      `orig`; the first unresolvable slot stops the pass. */
  function ResolveStates(orig: TMDesc, states: seq<State>): (r: Result<seq<State>>)
    ensures r.Ok? <==> forall i :: 0 <= i < |states| ==> StateResolvable(orig, states[i])
    ensures r.Ok? ==> |r.value| == |states| && forall i :: 0 <= i < |states| ==> StateResolvedFrom(orig, states[i], r.value[i])
    ensures r.Err? ==> exists i, k :: FirstUnresolvable(orig, states, i, k)
                                      && r.error == StateNotFound(states[i].transitions[k].value.state)
  {
    if |states| == 0 then Ok([])
    else
      var cells := ResolveCells(orig, states[0].transitions);
      if cells.Err? then
        ghost var k :| FirstUnresolvableCell(orig, states[0].transitions, k) && cells.error == StateNotFound(states[0].transitions[k].value.state);
        assert FirstUnresolvable(orig, states, 0, k);
        Err(cells.error)
      else
        var tail := ResolveStates(orig, states[1..]);
        if tail.Err? then
          ghost var i, k :| FirstUnresolvable(orig, states[1..], i, k)
                            && tail.error == StateNotFound(states[1..][i].transitions[k].value.state);
          assert states[1..][i] == states[i + 1];
          assert FirstUnresolvable(orig, states, i + 1, k) by {
            forall j | 0 <= j < i + 1 ensures StateResolvable(orig, states[j]) {
              if j > 0 { assert states[j] == states[1..][j - 1]; }
            }
          }
          Err(tail.error)
        else
          assert forall i :: 1 <= i < |states| ==> states[i] == states[1..][i - 1];
          Ok([State(states[0].name, cells.value)] + tail.value)
  }

  /** `resolve_all_state_indices`: caches in every transition the index its
      target resolves to in the description as it was before the pass;
      empty slots, names, symbols, movements and the alphabet are kept. The
      first target missing, in state-then-slot order, is the panic. */
  function ResolveAll(d: TMDesc): (r: Result<TMDesc>)
    ensures r.Ok? <==> forall i :: 0 <= i < |d.states| ==> StateResolvable(d, d.states[i])
    ensures r.Ok? ==> r.value.inputSymbols == d.inputSymbols
    ensures r.Ok? ==> |r.value.states| == |d.states|
                      && forall i :: 0 <= i < |d.states| ==> StateResolvedFrom(d, d.states[i], r.value.states[i])
    ensures r.Err? ==> exists i, k :: FirstUnresolvable(d, d.states, i, k)
                                      && r.error == StateNotFound(d.states[i].transitions[k].value.state)
  {
    var states :- ResolveStates(d, d.states);
    Ok(d.(states := states))
  }

  /** Every transition of a resolved description carries a cached index. */
  predicate FullyResolved(d: TMDesc)
  {
    forall i, k :: 0 <= i < |d.states| && 0 <= k < |d.states[i].transitions| && d.states[i].transitions[k].Some? ==>
      d.states[i].transitions[k].value.stateIndex.Some?
  }

  /** A successful pass leaves no transition without a cached index. */
  lemma ResolveAllFullyResolves(d: TMDesc)
    requires ResolveAll(d).Ok?
    ensures FullyResolved(ResolveAll(d).value)
  {
    var r := ResolveAll(d).value;
    forall i, k | 0 <= i < |r.states| && 0 <= k < |r.states[i].transitions| && r.states[i].transitions[k].Some?
      ensures r.states[i].transitions[k].value.stateIndex.Some?
    {
      assert StateResolvedFrom(d, d.states[i], r.states[i]);
      assert ResolvedFrom(d, d.states[i].transitions[k], r.states[i].transitions[k]);
    }
  }

  /** Running the pass on its own output changes nothing: every cached index
      is returned as it is. */
  lemma ResolveAllIdempotent(d: TMDesc)
    requires ResolveAll(d).Ok?
    ensures ResolveAll(ResolveAll(d).value) == ResolveAll(d)
  {
    var r := ResolveAll(d).value;
    ResolveAllFullyResolves(d);
    assert forall i :: 0 <= i < |r.states| ==> StateResolvable(r, r.states[i]);
    var r2 := ResolveAll(r).value;
    assert r2.states == r.states by {
      forall i | 0 <= i < |r.states| ensures r2.states[i] == r.states[i] {
        assert StateResolvedFrom(r, r.states[i], r2.states[i]);
        forall k | 0 <= k < |r.states[i].transitions|
          ensures r2.states[i].transitions[k] == r.states[i].transitions[k]
        {
          assert ResolvedFrom(r, r.states[i].transitions[k], r2.states[i].transitions[k]);
        }
        assert r2.states[i].transitions == r.states[i].transitions;
      }
    }
  }

  /** After a successful pass over an unresolved description every cached
      index points into the state table, at the first state of the right name. */
  lemma ResolutionTotal(d: TMDesc)
    requires Unresolved(d)
    requires ResolveAll(d).Ok?
    ensures forall i, k :: 0 <= i < |d.states| && 0 <= k < |d.states[i].transitions| && d.states[i].transitions[k].Some? ==>
      var t := ResolveAll(d).value.states[i].transitions[k];
      && t.Some? && t.value.stateIndex.Some?
      && t.value.stateIndex.value < |ResolveAll(d).value.states|
      && ResolveAll(d).value.states[t.value.stateIndex.value].name == t.value.state
      && t.value.state == d.states[i].transitions[k].value.state
      && forall j :: 0 <= j < t.value.stateIndex.value ==> ResolveAll(d).value.states[j].name != t.value.state
  {
    var r := ResolveAll(d).value;
    forall i, k | 0 <= i < |d.states| && 0 <= k < |d.states[i].transitions| && d.states[i].transitions[k].Some?
      ensures var t := r.states[i].transitions[k];
      && t.Some? && t.value.stateIndex.Some?
      && t.value.stateIndex.value < |r.states|
      && r.states[t.value.stateIndex.value].name == t.value.state
      && t.value.state == d.states[i].transitions[k].value.state
      && forall j :: 0 <= j < t.value.stateIndex.value ==> r.states[j].name != t.value.state
    {
      assert StateResolvedFrom(d, d.states[i], r.states[i]);
      assert ResolvedFrom(d, d.states[i].transitions[k], r.states[i].transitions[k]);
      var idx := r.states[i].transitions[k].value.stateIndex.value;
      assert StateResolvedFrom(d, d.states[idx], r.states[idx]);
      forall j | 0 <= j < idx ensures r.states[j].name == d.states[j].name {
        assert StateResolvedFrom(d, d.states[j], r.states[j]);
      }
    }
  }

  /** On an unresolved description the pass fails exactly when some
      transition names a state that is not in the table. */
  lemma ResolutionFailsIffUnknownTarget(d: TMDesc)
    requires Unresolved(d)
    ensures ResolveAll(d).Err? <==>
      exists i, k :: 0 <= i < |d.states| && 0 <= k < |d.states[i].transitions| && d.states[i].transitions[k].Some?
                     && d.states[i].transitions[k].value.state !in Names(d.states)
  {
    if ResolveAll(d).Err? {
      var i :| 0 <= i < |d.states| && !StateResolvable(d, d.states[i]);
      var k :| 0 <= k < |d.states[i].transitions| && !Resolvable(d, d.states[i].transitions[k]);
      var names := Names(d.states);
      assert d.states[i].transitions[k].value.state !in names;
    } else {
      forall i, k | 0 <= i < |d.states| && 0 <= k < |d.states[i].transitions| && d.states[i].transitions[k].Some?
        ensures d.states[i].transitions[k].value.state in Names(d.states)
      {
        assert Resolvable(d, d.states[i].transitions[k]);
        var j := ResolveStateIndex(d, d.states[i].transitions[k].value).value;
        assert Names(d.states)[j] == d.states[i].transitions[k].value.state;
      }
    }
  }
}

=== FILE: scenarios.dfy ===
/** Small machines that show where the library's behaviour is fixed by its
    code: a machine that is final from the start, a single step followed by
    a missing transition, a state with fewer cells than the alphabet has
    symbols, and tape growth that writes `B` whatever the alphabet says.
 */
module Scenarios {
  import opened Wrappers
  import opened Moves
  import opened Description
  import opened Resolution
  import opened Tapes
  import opened Machine

  /** A table whose only state is the final one, without cells. */
  function StopOnly(alphabet: seq<char>): TMDesc
  {
    TMDesc(alphabet, [State(FinalName, [])])
  }

  /** A machine over a final-only table has finished before its first step,
      never moves, and outputs its whole input (or the one blank `TM::new`
      adds to an empty input). */
  lemma {:induction false} StopOnlyRun(alphabet: seq<char>, input: string, n: nat)
    ensures New(StopOnly(alphabet), input).Ok?
    ensures HasFinished(New(StopOnly(alphabet), input).value)
    ensures Run(New(StopOnly(alphabet), input).value, n) == New(StopOnly(alphabet), input)
    ensures TapeOutput(New(StopOnly(alphabet), input).value) == if |input| == 0 then [Fill] else input
  {
    var tm := New(StopOnly(alphabet), input).value;
    FinishedIsFixpoint(tm, n);
    if |input| == 0 {
      assert tm.tape == Tape([], [Fill]);
    } else {
      assert tm.tape == Tape([], input);
    }
  }

  /** Alphabet `AB`; state `q0` rewrites `A` as `B` and moves right, and has
      no transition for `B`. */
  const Rewriter: TMDesc := TMDesc("AB", [State("q0", [Some(Transition("q0", None, 'B', Right)), None])])

  /** On input `A` the first step overwrites the `A`, moves onto a freshly
      grown blank and stays in `q0`; the second step finds no transition for
      the symbol at alphabet position 1. */
  lemma RewriterRun()
    ensures New(Rewriter, "A") == Ok(TM(Rewriter, 0, Tape([], "A"), Rewriter.states[0]))
    ensures RunStep(TM(Rewriter, 0, Tape([], "A"), Rewriter.states[0])) == Ok(TM(Rewriter, 1, Tape([], "BB"), Rewriter.states[0]))
    ensures RunStep(TM(Rewriter, 1, Tape([], "BB"), Rewriter.states[0])) == Err(NoTransition("q0", 1))
  {
    var q0 := Rewriter.states[0];
    var t := Transition("q0", None, 'B', Right);
    var first := TM(Rewriter, 0, Tape([], "A"), q0);
    assert FirstPosition(first, 0);
    assert ResolveStateIndex(Rewriter, t) == Ok(0) by {
      assert Rewriter.states[0].name == "q0";
    }
    StepTaken(first, 0, t, 0);
    assert Set(first.tape, 0, 'B') == Tape([], "B");
    assert EnsureSpace(Tape([], "B"), 1) == Tape([], "B" + Blanks(1));
    assert "B" + Blanks(1) == "BB";
    var second := TM(Rewriter, 1, Tape([], "BB"), q0);
    assert FirstPosition(second, 1);
    assert CurrentTransition(second) == Err(NoTransition("q0", 1));
  }

  /** Alphabet `AB`; state `q0` has a slot for `A` only. Loading accepts such
      a state, and the machine fails only once it reads a `B`. */
  const Short: TMDesc := TMDesc("AB", [State("q0", [Some(Transition("q0", None, 'A', Right))])])

  /** The alphabet line of `Short`. */
  lemma ShortHeader()
    ensures HandleLine(Empty, ["", "A", "B"]) == Ok(TMDesc("AB", []))
  {
    assert SkipFirst(["", "A", "B"]) == ["A", "B"];
    var syms := Symbols(["A", "B"]);
    assert syms.Ok? && |syms.value| == 2;
    assert syms.value == "AB" by {
      assert ["A", "B"][0] == [syms.value[0]] && ["A", "B"][1] == [syms.value[1]];
    }
    assert Empty.inputSymbols + "AB" == "AB";
  }

  /** The one cell of `q0`. */
  lemma ShortCell()
    ensures NewState("q0", ["q0,A,R"]) == Ok(Short.states[0])
  {
    var t := Transition("q0", None, 'A', Right);
    ParseTransitionField(t);
    assert TransitionField(t) == "q0,A,R";
    var cells := ParseCells(["q0,A,R"]);
    assert cells.Ok? && |cells.value| == 1;
    assert cells.value == [Some(t)];
  }

  /** The loader builds `Short` from an alphabet line and a state line
      with one cell: nothing compares the cell count with the alphabet. */
  lemma ShortLoads()
    ensures FromLines([["", "A", "B"], ["q0", "q0,A,R"]]) == Ok(Short)
  {
    var header := ["", "A", "B"];
    var line := ["q0", "q0,A,R"];
    ShortHeader();
    ShortCell();
    assert line[1..] == ["q0,A,R"];
    HandleAppends(TMDesc("AB", []), line, Short.states[0]);
    assert [header, line][1..] == [line] && [line][1..] == [];
  }

  /** On input `A` the first step of `Short` succeeds. On input `B` the
      symbol sits at alphabet position 1, beyond the one slot of `q0`, so
      the first step reports the short state. */
  lemma ShortRun()
    ensures RunStep(TM(Short, 0, Tape([], "A"), Short.states[0])).Ok?
    ensures New(Short, "B") == Ok(TM(Short, 0, Tape([], "B"), Short.states[0]))
    ensures RunStep(TM(Short, 0, Tape([], "B"), Short.states[0])) == Err(SlotOutOfRange("q0", 1))
  {
    var t := Transition("q0", None, 'A', Right);
    var ok := TM(Short, 0, Tape([], "A"), Short.states[0]);
    assert FirstPosition(ok, 0);
    assert ResolveStateIndex(Short, t) == Ok(0) by {
      assert Short.states[0].name == "q0";
    }
    StepTaken(ok, 0, t, 0);
    var tm := TM(Short, 0, Tape([], "B"), Short.states[0]);
    assert FirstPosition(tm, 1);
  }

  /** Growth writes `B` even when the alphabet has no `B`: a step that
      moves the head onto a new cell leaves a `B` under it, and unless the
      machine has then finished, the next step fails to find that symbol. */
  lemma GrownCellUnknown(tm: TM)
    requires Valid(tm) && RunStep(tm).Ok?
    requires !InRange(tm.tape, RunStep(tm).value.head)
    requires Fill !in tm.desc.inputSymbols
    ensures Get(RunStep(tm).value.tape, RunStep(tm).value.head) == Fill
    ensures !HasFinished(RunStep(tm).value) ==> RunStep(RunStep(tm).value) == Err(SymbolNotFound(Fill))
  {
  }
}

=== FILE: tape.dfy ===
/** The two-sided tape (`Tape` in src/lib.rs). Offsets `i >= 0` live in
    `right[i]`, offsets `i < 0` in `left[-i - 1]`, so the valid offsets are
    exactly `Min(t) <= i < Max(t)`. Only `EnsureSpace` changes the extent,
    and it fills new cells with the hard-coded character `'B'`.
 */
module Tapes {

  datatype Tape = Tape(left: seq<char>, right: seq<char>)

  /** The character `ensure_space` writes into new cells. */
  const Fill: char := 'B'

  /** `Tape::max`: one past the largest valid offset. */
  function Max(t: Tape): int
  {
    |t.right|
  }

  /** `Tape::min`: the smallest valid offset. */
  function Min(t: Tape): int
  {
    -|t.left|
  }

  /** The valid offsets run from `Min(t) <= 0` to `Max(t) >= 0`, one per
      stored cell, and each is backed by exactly one side. */
  lemma Extent(t: Tape)
    ensures Min(t) <= 0 <= Max(t)
    ensures Max(t) - Min(t) == |t.left| + |t.right|
    ensures forall i :: InRange(t, i) <==> (0 <= i < |t.right| || 0 <= -i - 1 < |t.left|)
  {
  }

  /** Whether `i` addresses a cell of the tape. */
  predicate InRange(t: Tape, i: int)
  {
    Min(t) <= i < Max(t)
  }

  /** `Tape::from_str`: the input on the non-negative side, nothing left of 0. */
  function FromStr(s: string): (t: Tape)
    ensures Min(t) == 0 && Max(t) == |s|
    ensures forall i :: 0 <= i < |s| ==> Get(t, i) == s[i]
  {
    Tape([], s)
  }

  /** `Index`: the character at offset `i`. An offset outside the tape is an
      out-of-bounds panic in the library, so callers must stay in range. */
  function Get(t: Tape, i: int): char
    requires InRange(t, i)
  {
    if i >= 0 then t.right[i] else t.left[-i - 1]
  }

  /** `IndexMut`: the tape with offset `i` overwritten by `c`. */
  function Set(t: Tape, i: int, c: char): (r: Tape)
    requires InRange(t, i)
    ensures Min(r) == Min(t) && Max(r) == Max(t)
    ensures Get(r, i) == c
    ensures forall j :: InRange(t, j) && j != i ==> Get(r, j) == Get(t, j)
  {
    if i >= 0 then t.(right := t.right[i := c]) else t.(left := t.left[-i - 1 := c])
  }

  /** `n` copies of the fill character. */
  function Blanks(n: nat): (r: seq<char>)
    ensures |r| == n && forall k :: 0 <= k < n ==> r[k] == Fill
  {
    seq(n, _ => Fill)
  }

  /** `Tape::ensure_space`: grows whichever side is needed so that `i` is in
      range, and nothing else. Old cells keep their contents, new cells hold
      `'B'`, and the tape grows by exactly as much as is needed. */
  function EnsureSpace(t: Tape, i: int): (r: Tape)
    ensures InRange(r, i)
    ensures Max(r) == if i >= Max(t) then i + 1 else Max(t)
    ensures Min(r) == if i < Min(t) then i else Min(t)
    ensures forall j :: InRange(t, j) ==> InRange(r, j) && Get(r, j) == Get(t, j)
    ensures forall j :: InRange(r, j) && !InRange(t, j) ==> Get(r, j) == Fill
  {
    if i >= Max(t) then
      t.(right := t.right + Blanks(i + 1 - |t.right|))
    else if i < Min(t) then
      t.(left := t.left + Blanks(-i - |t.left|))
    else
      t
  }

  /** A second `EnsureSpace` at the same offset is a no-op. */
  lemma EnsureSpaceIdempotent(t: Tape, i: int)
    ensures EnsureSpace(EnsureSpace(t, i), i) == EnsureSpace(t, i)
  {
  }

  /** Growth never shrinks the tape, so an offset already covered stays covered. */
  lemma EnsureSpaceMonotone(t: Tape, i: int, j: int)
    ensures Max(EnsureSpace(t, i)) >= Max(t) && Min(EnsureSpace(t, i)) <= Min(t)
    ensures InRange(t, j) ==> EnsureSpace(t, j) == t
  {
  }

  /** Reading back a written cell yields the written character. */
  lemma SetThenGet(t: Tape, i: int, j: int, c: char)
    requires InRange(t, i) && InRange(t, j)
    ensures Get(Set(t, i, c), j) == if j == i then c else Get(t, j)
  {
  }

  /** The reverse of a sequence. */
  function Reverse(s: seq<char>): (r: seq<char>)
    ensures |r| == |s| && forall k :: 0 <= k < |s| ==> r[k] == s[|s| - 1 - k]
  {
    if |s| == 0 then [] else Reverse(s[1..]) + [s[0]]
  }

  /** `to_string`: the whole tape from its smallest offset to its largest,
      that is, the left side reversed followed by the right side. */
  function ToString(t: Tape): (s: string)
    ensures |s| == Max(t) - Min(t)
    ensures forall k :: 0 <= k < |s| ==> s[k] == Get(t, Min(t) + k)
  {
    Reverse(t.left) + t.right
  }

  /** The cells from `lo` (inclusive) to `hi` (exclusive), in offset order;
      empty when `lo >= hi`. */
  function Render(t: Tape, lo: int, hi: int): (s: string)
    requires Min(t) <= lo && hi <= Max(t)
    ensures |s| == if lo < hi then hi - lo else 0
    ensures forall k :: 0 <= k < |s| ==> s[k] == Get(t, lo + k)
    decreases hi - lo
  {
    if lo >= hi then [] else [Get(t, lo)] + Render(t, lo + 1, hi)
  }

  /** `Index` addresses the tape as one string: offset `i` is position
      `i - Min(t)` of the left side reversed followed by the right side. */
  lemma GetAddressing(t: Tape, i: int)
    requires InRange(t, i)
    ensures Get(t, i) == (Reverse(t.left) + t.right)[i - Min(t)]
    ensures Get(t, i) == ToString(t)[i - Min(t)]
  {
  }

  /** Any window of the tape is the matching slice of `ToString`. */
  lemma RenderIsSlice(t: Tape, lo: int, hi: int)
    requires Min(t) <= lo <= hi <= Max(t)
    ensures Render(t, lo, hi) == ToString(t)[lo - Min(t)..hi - Min(t)]
  {
  }
}

=== FILE: text.dfy ===
/** Sequence and string helpers the description loader relies on: Rust's
    `str::split(sep)` on a single separator character, its inverse `Join`,
    and first-match search (`iter().enumerate().find(..)`).
 */
module Text {
  import opened Wrappers

  /** Number of occurrences of `c` in `s`. */
  function Count(s: string, c: char): nat
  {
    if |s| == 0 then 0 else (if s[0] == c then 1 else 0) + Count(s[1..], c)
  }

  /** Rust's `s.split(sep)` for a character separator: the maximal
      separator-free pieces between separators, in order. An empty string
      yields one empty piece, and a separator at either end yields an empty
      piece there. */
  function Split(s: string, sep: char): (parts: seq<string>)
    ensures |parts| == Count(s, sep) + 1
    ensures forall i :: 0 <= i < |parts| ==> sep !in parts[i]
    decreases |s|
  {
    if |s| == 0 then [""]
    else
      var rest := Split(s[1..], sep);
      if s[0] == sep then [""] + rest
      else [[s[0]] + rest[0]] + rest[1..]
  }

  /** Concatenates `parts` with `sep` between neighbours. */
  function Join(parts: seq<string>, sep: char): string
    requires |parts| >= 1
  {
    if |parts| == 1 then parts[0] else parts[0] + [sep] + Join(parts[1..], sep)
  }

  /** A join of three pieces, written out. */
  lemma Join3(parts: seq<string>, sep: char)
    requires |parts| == 3
    ensures Join(parts, sep) == parts[0] + [sep] + parts[1] + [sep] + parts[2]
  {
    assert parts[1..][1..] == [parts[2]];
    assert Join(parts[1..], sep) == parts[1] + [sep] + parts[2];
  }

  /** Joining the pieces of a split gives back the string. */
  lemma {:induction false} JoinSplit(s: string, sep: char)
    ensures Join(Split(s, sep), sep) == s
    decreases |s|
  {
    if |s| > 0 {
      var rest := Split(s[1..], sep);
      JoinSplit(s[1..], sep);
      if s[0] == sep {
        assert Split(s, sep)[1..] == rest;
      } else {
        var parts := Split(s, sep);
        if |rest| == 1 {
          assert parts == [[s[0]] + rest[0]];
        } else {
          assert parts[1..] == rest[1..];
          assert Join(rest, sep) == rest[0] + [sep] + Join(rest[1..], sep);
        }
        assert s == [s[0]] + s[1..];
      }
    }
  }

  /** Splitting a separator-free prefix glues it onto the first piece. */
  lemma {:induction false} SplitPrefix(a: string, rest: string, sep: char)
    requires sep !in a
    ensures Split(a + rest, sep) == [a + Split(rest, sep)[0]] + Split(rest, sep)[1..]
    decreases |a|
  {
    if |a| > 0 {
      assert (a + rest)[1..] == a[1..] + rest;
      SplitPrefix(a[1..], rest, sep);
      assert [a[0]] + (a[1..] + Split(rest, sep)[0]) == a + Split(rest, sep)[0];
    } else {
      var parts := Split(rest, sep);
      assert a + rest == rest;
      assert a + parts[0] == parts[0];
      assert parts == [parts[0]] + parts[1..];
    }
  }

  /** Splitting a join of separator-free pieces gives back the pieces. */
  lemma {:induction false} SplitJoin(parts: seq<string>, sep: char)
    requires |parts| >= 1
    requires forall i :: 0 <= i < |parts| ==> sep !in parts[i]
    ensures Split(Join(parts, sep), sep) == parts
    decreases |parts|
  {
    if |parts| == 1 {
      SplitPrefix(parts[0], "", sep);
      assert parts[0] + "" == parts[0];
    } else {
      var tail := Join(parts[1..], sep);
      SplitJoin(parts[1..], sep);
      assert parts[0] + [sep] + tail == parts[0] + ([sep] + tail);
      SplitPrefix(parts[0], [sep] + tail, sep);
      assert ([sep] + tail)[1..] == tail;
      assert parts[0] + "" == parts[0];
      assert parts == [parts[0]] + parts[1..];
    }
  }

  /** The position of the first element of `s` equal to `x`, if any. */
  function IndexOf<T(==)>(s: seq<T>, x: T): (r: Option<nat>)
    ensures r.Some? ==> r.value < |s| && s[r.value] == x
    ensures r.Some? ==> forall j :: 0 <= j < r.value ==> s[j] != x
    ensures r.None? <==> x !in s
  {
    if |s| == 0 then None
    else if s[0] == x then Some(0)
    else match IndexOf(s[1..], x)
      case None => None
      case Some(i) => Some(i + 1)
  }
}

=== FILE: wrappers.dfy ===
/** Option and Result types for the Turing-machine model.

    Every `panic!`, failed `assert_eq!`, failed `unwrap` and out-of-range
    slice index of the library becomes one constructor of `Error`, so that
    each failure path is an observable value instead of an abort.
 */
module Wrappers {

  /** An optional value, as Rust's `Option`. */
  datatype Option<+T> = None | Some(value: T)

  /** Why an operation of the library would have panicked. */
  datatype Error =
    /** A transition field did not split into exactly three comma-separated parts. */
    | FieldCount(field: string)
    /** A field that must hold exactly one character did not. */
    | NotOneChar(field: string)
    /** A movement character other than `L`, `R` or `N`. */
    | BadMovement(c: char)
    /** A state line without a field 0 (indexing `words[0]` of an empty slice). */
    | MissingStateName
    /** No state carries the name a transition refers to. */
    | StateNotFound(name: string)
    /** `blank_symbol` on an empty alphabet (`last().unwrap()` on an empty vector). */
    | NoAlphabetSymbols
    /** `TM::new` on a description without states (`states[0]` out of range). */
    | NoStates
    /** The symbol under the head is not in the alphabet. */
    | SymbolNotFound(c: char)
    /** The current state has fewer transition slots than the symbol's alphabet position. */
    | SlotOutOfRange(name: string, index: nat)
    /** The current state has `-` in the slot of the symbol under the head. */
    | NoTransition(name: string, index: nat)
    /** A cached state index beyond the state table. */
    | StateIndexOutOfRange(index: nat)

  /** The outcome of an operation that may fail; usable with `:-`. */
  datatype Result<+T> = Ok(value: T) | Err(error: Error) {

    predicate IsFailure() {
      Err?
    }

    function PropagateFailure<U>(): Result<U>
      requires Err?
    {
      Err(error)
    }

    function Extract(): T
      requires Ok?
    {
      value
    }
  }
}
